=== FILE: README.md ===
# NFA to DFA conversion, modelled in Dafny

This project models a small Java program that converts nondeterministic
finite automata (NFAs) into deterministic ones (DFAs) by the powerset
(Rabin-Scott) construction, and proves properties of the model. The program
has four core classes:

- `NState` is an NFA state. Per symbol it holds a set of successors, with the
  `null` symbol standing for epsilon.
- `DState` is a DFA state, with at most one successor per symbol.
- `NFA` has a table loader (`createFrom`), epsilon-closure
  (`epsilonClosure`) and a simulator (`input`).
- `DFA` has a table loader (`createFrom`), a simulator (`input`) and the
  conversion (`convertFrom`) with its helpers `contains` and `find`.

How Java concepts map to the model:

- **Object identity.** Java tells states apart by identity. Here a state is
  a `nat` index into an arena: `seq<NState>` or `seq<DState>`. A well-formed
  arena is one where every successor index lies in the arena.
- **Symbols.** A symbol is `Epsilon` (Java's `null`) or `Sym(text)`. Input
  character `c` walks the symbol `Sym([c])`. For a character of the Basic
  Multilingual Plane this is what `String.valueOf(c)` gives. Other
  characters differ; see "Left out".
- **Errors.** Java's exceptions become `Failure` values of a `Result`:
  - `NoStartState` and `NoAcceptState` for the two loader errors;
  - `MissingTransition` for `DState.walk` on an undefined symbol.

What is modelled, module by module:

- **`NStates`, `DStates`**: the transition maps of the two state kinds.
- **`EpsilonClosure`**: a visited-set guarded search over epsilon edges. It
  terminates because it never expands a state twice. The lemmas prove it
  computes the least epsilon-closed superset, i.e. the states reachable by
  zero or more epsilon moves.
- **`Nfas`**: the NFA container and two acceptance semantics.
  - The closure-based one (`Accepts`).
  - `NFA.input` as written (`InputAsWritten`).
  - They differ only on the empty input (first finding below).
- **`Dfas`**: the DFA container, the walk over the input and `DFA.input`.
- **`Worklists`**: the worklist loop of `convertFrom`, independent of what
  its sets stand for.
  - A set joins only if it is non-empty and not set-equal to an entry
    already present (`contains`).
  - The loop terminates because the sets are drawn from the finitely many
    subsets of the NFA's states.
- **`SubsetConstruction`**: the worklist of `convertFrom` over an actual
  NFA, and the composite states it yields.
- **`CompositeNames`**: the display names `{n1, ..., nk}` of composites,
  including Java's `String.strip`.
- **`Conversion`**: the DFA `convertFrom` builds.
  - Its states are a dead state `{}` plus one state per composite.
  - A composite accepts iff it holds an NFA accept state.
  - The headline theorem `ConvertPreservesLanguage`: on every input over the
    NFA's input symbols, the DFA accepts iff the NFA does.
  - On every other input the DFA reports a missing transition.
- **`Tables`, `NfaLoader`, `DfaLoader`**: the two `createFrom` table
  loaders.
  - A table becomes the sequence of steps the loader takes: look up or create
    a row's state, then record each transition in its cells.
  - The loaders fold those steps over an arena.
  - The NFA loader adds transitions. The DFA loader overwrites them, so the
    last cell in row-major order wins.

The epsilon step after each symbol of `NFA.input` (NFA.java:65-71) can be
read as adding one epsilon level only. The loop, however, iterates over the
list it appends to. This model follows that loop's evident intent: it visits
the appended states too, as the index loop of NFA.java:52-57 does.
So the active set is fully epsilon-closed after every symbol. With this
reading, `NFA.input` and the closure-based semantics agree on every
non-empty input.

## Model

| member | source | states |
|---|---|---|
| NStates.NewNState | NState.java:9-16 | a new state has the given name and no successor under any symbol |
| NStates.NextStatesOn | NState.java:37-39 | the stored successor set, or None for a symbol with no entry (Java's null), told apart from an empty set |
| NStates.Walk | NState.java:51-58 | the successors under a symbol; a symbol without an entry yields the empty set and never fails |
| NStates.PutNextState | NState.java:18-24 | the target joins the successors of that symbol (the set is created when absent); other symbols and the name are untouched; the flag is true iff the target was new |
| NStates.PutTwice | NState.java:18-24 | a repeated put returns false and leaves the state unchanged |
| NStates.PutThenFind | NState.java:18-35 | after a put, the target is among all successors and the symbol is among those leading to it |
| NStates.PutWalk | NState.java:18-24 | a put adds its target under its own symbol and changes the successors under no other symbol |
| NStates.FindSymbolToState | NState.java:26-35 | exactly the symbols, epsilon included, whose successor set holds the target |
| NStates.NextStates | NState.java:41-49 | the union of the successor sets of all symbols, epsilon included |
| DStates.NewDState | DState.java:9-16 | a new state has the given name and no successor; walking it fails with a missing transition |
| DStates.NextState | DState.java:35-37 | the successor under a symbol, or None (Java's null) without raising |
| DStates.PutNextState | DState.java:18-20 | afterwards the symbol leads to the new target; other symbols and the name are unchanged |
| DStates.PutOverwrites | DState.java:18-20 | a later put under the same symbol overwrites the earlier one |
| DStates.NextStates | DState.java:31-33 | exactly the targets some symbol maps to (the range of the map) |
| DStates.Walk | DState.java:39-46 | the unique successor when one is defined, otherwise the missing-transition failure |
| DStates.FindSymbolToState | DState.java:22-29 | some symbol that maps to the target, or None exactly when no symbol does |
| EpsilonClosure.EpsSucc | NFA.java:152 | the direct epsilon successors of a state lie in the arena |
| EpsilonClosure.ExpandOne | NFA.java:151-160 | expanding one pending state keeps the search invariant and either visits a new state or shrinks the pending set (the termination measure) |
| EpsilonClosure.Explore | NFA.java:151-160 | the search result holds every visited state and is epsilon-closed |
| EpsilonClosure.Closure | NFA.java:144-149 | the closure of a state contains the state and is epsilon-closed |
| EpsilonClosure.ClosureOfSet | DFA.java:125-128 | the closure of a set contains the set and is epsilon-closed |
| EpsilonClosure.ExploreLeast | NFA.java:151-160 | the search adds only states that every epsilon-closed superset of its start contains |
| EpsilonClosure.ClosureOfSetLeast | DFA.java:125-128 | the closure of a set lies inside every epsilon-closed superset of it |
| EpsilonClosure.ClosureLeast | NFA.java:144-160 | the closure of a state lies inside every epsilon-closed set holding the state |
| EpsilonClosure.ClosureIsReachability | NFA.java:144-160 | a state is in the closure iff it is reachable by zero or more epsilon moves |
| EpsilonClosure.ClosureOfClosureMember | NFA.java:144-160 | closing any member of a closure adds nothing to it |
| EpsilonClosure.ClosedIsOwnClosure | NFA.java:144-160 | closing an epsilon-closed set gives the set back |
| EpsilonClosure.ClosureOfSetIdempotent | DFA.java:125-128 | closing twice equals closing once |
| EpsilonClosure.ClosureOfSetMonotonic | DFA.java:125-128 | a larger set has a larger closure |
| EpsilonClosure.ClosureOfSetIsUnion | DFA.java:125-128 | the closure of a set, found in one search, equals the union of its members' closures, which is how convertFrom computes it |
| Nfas.MakeNfa | NFA.java:16-35 | the constructor keeps the given states and adds their direct successors (one level only); the alphabet is exactly the labels, epsilon included, of edges leaving a given state |
| Nfas.MakeNfaKeepsWholeArena | NFA.java:23-27 | given every state of a well-formed arena, the constructor adds no other state |
| Nfas.Move | NFA.java:59 | the successors under a symbol of a set of arena states are arena states |
| Nfas.Step | NFA.java:59-71 | one closure-based step yields an epsilon-closed set |
| Nfas.Reach | NFA.java:50-72 | the active set after an input stays in the arena |
| Nfas.ReachAppend | NFA.java:50-72 | reading u then v is reading u + v |
| Nfas.ReachStaysClosed | NFA.java:65-71 | from an epsilon-closed set the active set stays epsilon-closed |
| Nfas.ClosedReachAsWritten | NFA.java:50-72 | from an epsilon-closed set, input's steps coincide with the closure-based ones |
| Nfas.AsWrittenReach | NFA.java:45-72 | after at least one character, input's active set is the closure-based one started at the closure of the start |
| Nfas.InputAsWritten | NFA.java:44-82 | input accepts a non-empty input iff the closure-based semantics does; on the empty input it accepts iff the start state itself is accepting |
| Nfas.InputCorrected | NFA.java:44-82 | input with the final active set closed decides the closure-based acceptance on every input, and agrees with input on non-empty inputs |
| Nfas.EpsilonFreeInputAgrees | NFA.java:44-82 | without epsilon moves, input decides exactly the closure-based acceptance, the empty input included |
| Nfas.AsWrittenMissesEpsilonOnEmptyInput | NFA.java:45-46 | a start state with an epsilon move to an accept state: the closure-based semantics accepts the empty input, input rejects it |
| Dfas.MakeDfa | DFA.java:19-37 | the constructor keeps the given states and adds their direct successors (one level only) |
| Dfas.MakeDfaKeepsWholeArena | DFA.java:26-31 | given every state of a well-formed arena, the constructor adds no other state |
| Dfas.CollectAlphabet | DFA.java:26-36 | every collected symbol labels an edge of a given state, and each successor of a given state is reached by some collected symbol (one per successor, so symbols can be missed) |
| Dfas.Run | DFA.java:43-50 | walking the input ends in an arena state or fails with a missing transition |
| Dfas.Input | DFA.java:43-56 | the empty input decides on the start state alone; when the walk over the input reaches a state, the result is whether that state is accepting; otherwise the result is the missing-transition failure |
| Dfas.RunAppend | DFA.java:47-49 | walking u + v is walking u, then v from where u ended; a failure in u is final |
| Dfas.RunStopsAtMissingTransition | DFA.java:47-49 | the walk fails as soon as a character has no successor, whatever follows |
| Dfas.RunTotal | DFA.java:47-49 | over an arena with a successor for every symbol used, the walk never fails |
| Dfas.RunFailsOutside | DFA.java:47-49 | if states only have successors for the symbols of an alphabet, one character outside it anywhere makes the walk fail |
| Worklists.Contains | DFA.java:243-248 | some entry holds the same states as the target (mutual containment) |
| Worklists.Enlist | DFA.java:150-154 | appends the target iff it is non-empty and not yet an entry; keeps the old entries as a prefix and keeps them distinct |
| Worklists.Visit | DFA.java:134-155 | processing one entry puts every non-empty target in the worklist and appends nothing else; entries stay distinct and as a prefix |
| Worklists.VisitKeepsOk | DFA.java:134-155 | processing an entry keeps the worklist non-empty, distinct and made of non-empty sets of arena states |
| Worklists.VisitProcesses | DFA.java:124-156 | processing entry i marks it processed and keeps earlier entries processed |
| Worklists.GrowthShrinksRemainder | DFA.java:150-154 | a worklist that grows gains a subset it did not hold, so the unseen subsets shrink (termination of the outer loop) |
| Worklists.VisitFinds | DFA.java:134-152 | every entry that processing entry i appends is the target of entry i under some symbol |
| Worklists.Discover | DFA.java:124-156 | the outer loop ends with a well-formed worklist that extends the initial one, in which every entry leads under every symbol to the empty set or an entry, and in which every appended entry is the target of an earlier entry |
| SubsetConstruction.InputSymbols | DFA.java:134-135 | the symbols processed are exactly the symbols of the NFA alphabet other than epsilon |
| SubsetConstruction.InputSymbolsAreEdgeLabels | NFA.java:26-31 | for an automaton made by the constructor, the symbols processed are exactly the labels other than epsilon of the edges leaving the given states |
| SubsetConstruction.Target | DFA.java:137-143 | the target of a worklist entry under a symbol is epsilon-closed |
| SubsetConstruction.Table | DFA.java:125-143 | the table the worklist sees gives, for every set and input symbol, the close-move-close target |
| SubsetConstruction.Worklist | DFA.java:115-156 | the finished worklist starts with the set of the start state, is well formed, leads under every input symbol from each entry to the empty set or an entry, and holds after the first only targets of earlier entries |
| SubsetConstruction.ClosedEntries | DFA.java:124-128 | the closed entries are, position by position, the closures of the worklist entries |
| SubsetConstruction.ClosedEntriesStepClosed | DFA.java:137-154 | every input symbol leads from a closed entry to the empty set or a closed entry |
| SubsetConstruction.Composites | DFA.java:171-201 | the composites are distinct, non-empty and epsilon-closed; the closure of the NFA start is one; every input symbol leads from each to the empty set or a composite; and they are exactly the closures of the worklist entries |
| SubsetConstruction.WithEmptySet | DFA.java:162-169 | putting the empty set in front keeps the sets distinct and makes every step land on one of them |
| SubsetConstruction.MemberSets | DFA.java:158-201 | the member sets of the DFA's states: the empty set first, then exactly the composites; distinct, closed, holding the start's closure, and closed under every step |
| SubsetConstruction.ReachIsStepAll | NFA.java:45-72 | reading a string's characters is stepping under their one-character symbols |
| SubsetConstruction.WorklistReached | DFA.java:115-156 | the closure of every worklist entry is reached from the closure of the start by a sequence of input symbols |
| SubsetConstruction.ReachedIsComposite | DFA.java:115-201 | every set reached from the closure of the start by input symbols is empty or a composite |
| SubsetConstruction.CompositesAreReached | DFA.java:115-201 | a set is a composite iff it is non-empty and reached from the closure of the start by a sequence of input symbols: the DFA has one state per subset the loop meets, and no other |
| CompositeNames.StripLeading | DFA.java:190 | the result is a suffix of the input that does not start with whitespace |
| CompositeNames.StripTrailing | DFA.java:190 | the result is a prefix of the input that does not end with whitespace |
| CompositeNames.ListingIsJoinPlusSeparator | DFA.java:186-189 | the loop's "name, " listing is the names joined by ", " plus one trailing separator |
| CompositeNames.StripListing | DFA.java:186-192 | for at least one name, stripping and cutting the last character leaves "{" followed by the joined names |
| CompositeNames.StripEmptyListing | DFA.java:190-195 | with no names, stripping leaves "{" alone |
| CompositeNames.Render | DFA.java:186-195 | a non-empty list of names renders as {n1, ..., nk}; the empty list renders as "" |
| CompositeNames.AscendingIds | DFA.java:187 | the members of a set below a bound, in strictly ascending order, and no others (the fixed order that stands for the hash-set order of the naming loop) |
| CompositeNames.MemberNames | DFA.java:187-188 | the names of a composite's arena members in that order; there is one exactly when the composite holds an arena state |
| CompositeNames.CompositeName | DFA.java:186-195 | a composite holding an arena state is named by its members' names separated by ", " inside braces; one holding none is named "" |
| Conversion.DeadState | DFA.java:162-169 | the dead state is named {} and loops on itself under exactly the input symbols |
| Conversion.StepOfEmpty | DFA.java:137-143 | stepping from no state reaches no state |
| Conversion.StateAtSteps | DFA.java:171-225 | the state of member set k has successors under exactly the input symbols, each leading to the state of the step of its set |
| Conversion.ArenaSteps | DFA.java:171-225 | every state of the built arena moves under each input symbol to the state of its set's step |
| Conversion.ArenaValid | DFA.java:158-237 | the built arena has one state per member set and is well formed |
| Conversion.Build | DFA.java:158-239 | the DFA built from member sets simulates the NFA: the start stands for the start's closure, steps follow the NFA's steps, and a state accepts iff its set holds an accept state |
| Conversion.Convert | DFA.java:114-241 | convertFrom yields a well-formed DFA that simulates the NFA through its member sets and lists all its states |
| Conversion.BuildArena | DFA.java:162-225 | the arena starts with the dead state, followed by one state per composite named after its members |
| Conversion.ConvertArena | DFA.java:162-225 | the converted arena starts with the dead state, followed by one state per composite named after its members |
| Conversion.SimulatedRun | DFA.java:43-50 | walking a simulating DFA over input symbols never fails and ends at the state of the set the NFA reaches |
| Conversion.SimulationPreservesLanguage | DFA.java:227-236 | a simulating DFA accepts an input over the input symbols iff the NFA does |
| Conversion.ConvertPreservesLanguage | DFA.java:114-241 | the converted DFA accepts an input over the NFA's input symbols iff the NFA accepts it (closure-based) |
| Conversion.SimulationRejectsForeignSymbols | DFA.java:162-167 | a simulating DFA reports a missing transition on any input holding a character that is not an input symbol |
| Conversion.ConvertRejectsForeignSymbols | DFA.java:114-241 | the converted DFA reports a missing transition on any input holding a non-input character |
| Conversion.WholeArenaRejectsForeignSymbols | NFA.java:23-31 | an NFA given every state of its arena, as `createFrom` builds it, rejects any input holding a character no edge carries, so there the DFA's missing transition stands where the NFA rejects |
| Conversion.PartialArenaAcceptsForeignSymbol | NFA.java:23-31 | on the arena p0 -a-> p1 -b-> p2 with only p0 given, `b` is not collected: the NFA's `input` accepts "ab" while the converted DFA fails with a missing transition |
| Conversion.SimulationEmptyStateAbsorbs | DFA.java:214-223 | the state of the empty set rejects and every input over the input symbols leads from it back to it |
| Conversion.DeadStateAbsorbs | DFA.java:162-169 | the dead state of the converted DFA rejects and never leaves itself |
| Conversion.EmptyReachesEmpty | DFA.java:137-143 | from no state the NFA reaches no state, whatever the input |
| Conversion.ConvertAsWritten | DFA.java:114-241 | convertFrom as written: with an input symbol it accepts what the NFA accepts; without one its start is a fresh state outside its states: it rejects the empty input and fails with a missing transition on any other |
| Conversion.AsWrittenRejectsWithoutSymbols | DFA.java:158-159 | a one-state accepting NFA without edges accepts the empty input, and the DFA built as written rejects it |
| Tables.Mentioned | NFA.java:97-115 | the names the loader's steps refer to are exactly those of some step |
| Tables.LastTarget | DFA.java:82 | the last recorded target from a state under a symbol, if any, is a recorded target; there is none iff no transition was recorded |
| Tables.LastTargetSnoc | DFA.java:82 | a new transition from the same state and symbol becomes the last one; any other step leaves the last one as it was |
| Tables.LastTargetIsLast | DFA.java:75-83 | the last recorded transition decides the target, whatever came before it |
| Tables.LastTargetAppend | DFA.java:68-84 | after appending steps, the last transition is in the appended part if it has one, and in the earlier part otherwise |
| Tables.CellLinks | NFA.java:104-114 | a row records a transition from its state under a column's symbol to every name in that column's cell, and no other; a cell past the header records nothing |
| Tables.NfaEntriesMention | NFA.java:97-102 | the NFA loader looks up the state of every row, and no other |
| Tables.NfaEntriesLink | NFA.java:104-114 | the NFA loader records exactly the transitions the rows list |
| Tables.NfaEntriesNames | NFA.java:97-115 | the NFA loader's steps refer to exactly the names the table uses |
| Tables.RowLinks | DFA.java:75-83 | a DFA row records one transition per cell, from its state under the column's symbol to the cell's name |
| Tables.RowLast | DFA.java:75-83 | within a row, the last transition under a symbol is in that symbol's last column; there is none when the row is not the state's or has no such column |
| Tables.DfaEntriesLast | DFA.java:68-84 | the DFA loader's last transition from a state under a symbol comes from the last such cell in row-major order; there is none iff there is no such cell |
| Tables.DfaEntriesTarget | DFA.java:68-84 | the DFA loader's last target from a state under a symbol is t iff the table's last such cell holds t |
| Tables.DfaEntriesMention | DFA.java:68-73 | the DFA loader looks up the state of every row, and no other |
| Tables.DfaEntriesLink | DFA.java:75-83 | the DFA loader records a transition exactly for each cell of a row |
| Tables.DfaEntriesNames | DFA.java:68-84 | the DFA loader's steps refer to exactly the names the table uses |
| NfaLoader.FindState | NFA.java:135-142 | returns a state with the name, or None exactly when no state has it; with unique names it is the only one |
| NfaLoader.Intern | NFA.java:98-111 | looks up the state of a name; when none exists, appends a new state with the name and no transitions, and changes nothing else |
| NfaLoader.InternKeepsShape | NFA.java:98-111 | interning keeps the arena well formed and its names unique, and adds exactly the interned name |
| NfaLoader.InternKeepsEdges | NFA.java:98-111 | interning adds no transition |
| NfaLoader.LinkKeepsShape | NFA.java:104-113 | recording a transition keeps the arena well formed and its names unique, and adds exactly its two names |
| NfaLoader.PutKeepsEdges | NFA.java:112 | putting a successor keeps every existing transition |
| NfaLoader.PutAddsEdge | NFA.java:112 | putting a successor adds the transition between the two names, and no other |
| NfaLoader.LinkEdges | NFA.java:105-113 | recording a transition adds exactly that transition |
| NfaLoader.LoadShape | NFA.java:97-115 | the loader keeps names unique and the arena well formed, and names exactly the old names plus those its steps mention |
| NfaLoader.LoadEdges | NFA.java:97-115 | after the loader, the transitions are exactly the old ones plus those its steps record |
| NfaLoader.LoadTableShape | NFA.java:97-115 | the arena of a table names each state once, names exactly the names the table uses, and moves f to t under a exactly when a row of f lists t in a column of a |
| NfaLoader.AcceptStates | NFA.java:117-124 | the accept states are exactly the states whose names are listed; there are none iff no listed name is a state's |
| NfaLoader.CreateFrom | NFA.java:89-133 | fails with no-start-state iff the table never uses the start name, else with no-accept-state iff it uses none of the accept names; on success it has one state per used name, starts at the start name's state, accepts at the listed names' states, has exactly the listed transitions, and its alphabet is exactly the symbols under which the table lists a transition |
| NfaLoader.WholeArenaAlphabet | NFA.java:23-31 | given every state of the arena, as `createFrom` does at NFA.java:132, the constructor's alphabet is exactly the labels of the named transitions |
| DfaLoader.FindState | DFA.java:105-112 | returns a state with the name, or None exactly when no state has it; with unique names it is the only one |
| DfaLoader.Intern | DFA.java:69-81 | looks up the state of a name; when none exists, appends a new state with the name and no transitions, and changes nothing else |
| DfaLoader.InternKeepsShape | DFA.java:69-81 | interning keeps the arena well formed and its names unique, and adds exactly the interned name |
| DfaLoader.InternKeepsEdges | DFA.java:69-81 | interning adds no transition |
| DfaLoader.LinkKeepsShape | DFA.java:75-83 | recording a transition keeps the arena well formed and its names unique, and adds exactly its two names |
| DfaLoader.PutKeepsEdges | DFA.java:82 | replacing a successor keeps every transition from another state or under another symbol |
| DfaLoader.PutReplacesEdge | DFA.java:82 | with unique names, replacing a successor makes the new target the only one under that symbol |
| DfaLoader.LinkEdges | DFA.java:75-83 | recording a transition makes its target the only one from its state under its symbol, and changes nothing else |
| DfaLoader.LoadShape | DFA.java:68-84 | the loader keeps names unique and the arena well formed, and names exactly the old names plus those its steps mention |
| DfaLoader.LoadEdges | DFA.java:68-84 | after the loader, the target from f under a is that of the last recorded transition from f under a; if there is none it is unchanged |
| DfaLoader.LoadTableShape | DFA.java:68-84 | the arena of a table names each state once, names exactly the names the table uses, and moves f to t under a exactly when the last cell of f's rows under a holds t |
| DfaLoader.AcceptStates | DFA.java:86-93 | the accept states are exactly the states whose names are listed; there are none iff no listed name is a state's |
| DfaLoader.CreateFrom | DFA.java:63-102 | fails with no-start-state iff the table never uses the start name, else with no-accept-state iff it uses none of the accept names; on success it has one state per used name, starts at the start name's state, accepts at the listed names' states, and its transitions are the last ones the table gives |

## Left out

- Main.java: a demo driver that only prints.
- `DFA.toString` (DFA.java:257-295): display formatting.
- The process-wide state counter of State.java (lines 2 and 8): identity is the arena index here.
- The `transitionFunctions` maps and `appendToTransitionFunctions` (NFA.java:12, 37-42; DFA.java:15, 39-41): they are filled but never read.
- The NFA constructor's `transitionFunctions` entries, for the same reason. `Nfas.MakeNfa` models its state and alphabet collection only.
- `epsilonClosureWithoutSelf` and its recursion (NFA.java:162-176): no other code calls them, and they never mark a state as visited, so they loop on epsilon cycles.
- The getters of `NFA` (NFA.java:178-192): they return fields of the `Nfa` datatype directly.
- Aliasing and concurrent modification. Only the intended set unions are modelled.
  - NFA.java:152-156 adds into the state's own epsilon set while iterating over it, and marks `state` rather than `epsilonState` as visited.
  - DFA.java:141-143 adds to `walkedStates` while iterating over it.
  - NFA.java:65-71 appends to `currentStates` while iterating over it.
  - In Java each of these would throw `ConcurrentModificationException` or corrupt the automaton.
- Name-based deduplication of composites via `find` (DFA.java:197, 216), and the sorted list that is never used (DFA.java:176-184). Composite names depend on hash-set iteration order. The model keys composites by their member sets and uses names for display only.
- CompositeNames.AscendingIds fixes the hash-set iteration order of the naming loop (DFA.java:187) as ascending state index. Java's order is unspecified, so the same composite may be named with its members in another order.
- Hash-set iteration order in general. Where it picks a result, the model fixes one choice and states nothing that depends on it:
  - which symbol `DState.findSymbolToState` reports;
  - the order in which symbols and pending states are visited.
- Null values:
  - A `null` input string is the empty input.
  - A `null` header symbol is `Epsilon`.
  - `new DState()` without a name has the empty name.
  - `null` state names, cells or accept lists (which throw in Java) are not modelled.
- Conversion.ConvertPreservesLanguage covers inputs over the NFA's input symbols only. Any other input makes the converted DFA report a missing transition, as `Conversion.ConvertRejectsForeignSymbols` states.
  - On an NFA given its whole arena, as `NFA.createFrom` builds it (NFA.java:132), the NFA rejects such an input (`Conversion.WholeArenaRejectsForeignSymbols`), so the failure stands where the NFA rejects.
  - The public constructor may be given only part of the arena. Its alphabet then misses the labels of edges leaving the other states (NFA.java:23-31), and the NFA can accept an input that Java's converted DFA throws on (`Conversion.PartialArenaAcceptsForeignSymbol`).
- NfaLoader.CreateFrom requires every cell past the header's last column to be empty. Java reads a column's header symbol only for each name in that column's cell (NFA.java:104-113). A name there makes it index past the header row and throw, while an empty cell there is skipped, as the model's walk skips it.
- DfaLoader.CreateFrom requires no row to be longer than the header. Java reads the header cell of every column (DFA.java:82), so any longer row makes it index past the header row and throw.
- Dfas.CollectAlphabet states only which symbols may be collected and that each successor gets one of them. Which symbol is reported for a successor reached under several symbols depends on hash order.
- Supplementary characters in the input. Java's `toCharArray` (NFA.java:50, DFA.java:47) splits a character outside the Basic Multilingual Plane into two UTF-16 surrogate code units and walks each as its own symbol. Here input characters are Unicode scalar values, and such a character is walked as one symbol. An NFA whose header symbol is such a character therefore accepts it here, while Java's NFA rejects it and Java's DFA throws.
- NfaLoader.CreateFrom and DfaLoader.CreateFrom take tables whose rows always carry a state name and whose header gives one symbol per column. So the tables on which Java throws `ArrayIndexOutOfBoundsException` cannot be written down:
  - an empty row (NFA.java:98, DFA.java:69);
  - an empty name cell in an NFA row (NFA.java:98);
  - an empty header cell above a non-empty cell (NFA.java:112).
  A header cell holding several strings stands for its first string, the only one Java reads (NFA.java:112). Likewise a row's name cell in an NFA table stands for its first string (NFA.java:98, 100).

## Findings

| source | as written | input that shows it | evidently intended | confidence | as-written member | corrected member |
|---|---|---|---|---|---|---|
| NFA.java:45-48, 76-81 | `input` closes the active states under epsilon only inside the per-character loop, so on the empty input it looks at the start state alone | states p0 and p1, p0 moves to p1 under epsilon, p1 accepting, empty input: rejected, although p1 is reachable with no input | accept iff the epsilon-closure of the start meets the accept states | not executed | Nfas.InputAsWritten, Nfas.AsWrittenMissesEpsilonOnEmptyInput | Nfas.InputCorrected |
| DFA.java:159, 227-229 | the start of the converted DFA is a fresh `DState` that is replaced only while processing a transition, so an NFA with no non-epsilon symbol keeps that fresh start, which is neither a state of the DFA nor accepting | one accepting state p0 with no edges, empty input: the NFA accepts, the converted DFA rejects | the start is the composite of the closure of the NFA start, whether or not there are input symbols | not executed | Conversion.ConvertAsWritten, Conversion.AsWrittenRejectsWithoutSymbols | Conversion.Convert, Conversion.ConvertPreservesLanguage |

=== FILE: closure.dfy ===
/** Epsilon-closure over an arena of nondeterministic states: the states
    reachable from a state by zero or more epsilon moves.

    The search keeps a visited set and never expands a state twice, which is
    what makes it terminate on epsilon cycles. The order in which pending
    states are expanded does not change the result (a set), so it is left
    unspecified. */
module EpsilonClosure {
  import opened Common
  import opened NStates

  /** The direct epsilon successors of `q`. */
  function EpsSucc(g: seq<NState>, q: StateId): (r: set<StateId>)
    requires q < |g|
    ensures ValidGraph(g) ==> InArena(r, |g|)
  {
    Walk(g[q], Epsilon)
  }

  /** `s` lies in the arena and no epsilon move leads out of it. */
  ghost predicate EpsClosed(g: seq<NState>, s: set<StateId>)
  {
    forall q | q in s :: q < |g| && EpsSucc(g, q) <= s
  }

  /** The invariant of the search. `visited` holds every state found so
      far; `frontier` holds the visited states whose epsilon successors have
      not been looked at yet; every other visited state has all its epsilon
      successors visited. */
  ghost predicate Searching(g: seq<NState>, visited: set<StateId>, frontier: set<StateId>)
  {
    && ValidGraph(g)
    && InArena(visited, |g|)
    && frontier <= visited
    && forall q | q in visited - frontier :: EpsSucc(g, q) <= visited
  }

  /** Expanding one pending state `q` keeps the invariant. */
  lemma ExpandKeepsSearching(g: seq<NState>, visited: set<StateId>, frontier: set<StateId>, q: StateId)
    requires Searching(g, visited, frontier)
    requires q in frontier
    ensures Searching(g, visited + (EpsSucc(g, q) - visited), frontier - {q} + (EpsSucc(g, q) - visited))
  {
  }

  /** Expanding one pending state `q` either visits a new state or shrinks
      the frontier. */
  lemma ExpandShrinks(g: seq<NState>, visited: set<StateId>, frontier: set<StateId>, q: StateId)
    requires Searching(g, visited, frontier)
    requires q in frontier
    ensures var added := EpsSucc(g, q) - visited;
            if added == {} then |frontier - {q} + added| < |frontier|
            else |Ids(|g|) - (visited + added)| < |Ids(|g|) - visited|
  {
    var added := EpsSucc(g, q) - visited;
    if added != {} {
      UnvisitedShrinks(|g|, visited, added);
    } else {
      assert frontier - {q} + added == frontier - {q};
    }
  }

  /** Expanding one pending state `q` keeps the invariant, and either visits
      a new state or shrinks the frontier. */
  lemma ExpandOne(g: seq<NState>, visited: set<StateId>, frontier: set<StateId>, q: StateId)
    requires Searching(g, visited, frontier)
    requires q in frontier
    ensures var added := EpsSucc(g, q) - visited;
            && Searching(g, visited + added, frontier - {q} + added)
            && (if added == {} then |frontier - {q} + added| < |frontier|
                else |Ids(|g|) - (visited + added)| < |Ids(|g|) - visited|)
  {
    ExpandKeepsSearching(g, visited, frontier, q);
    ExpandShrinks(g, visited, frontier, q);
  }

  /** The search: expands pending states until none is left. The order in
      which they are expanded is `Pick`'s. */
  ghost function Explore(g: seq<NState>, visited: set<StateId>, frontier: set<StateId>): (r: set<StateId>)
    requires Searching(g, visited, frontier)
    ensures visited <= r
    ensures EpsClosed(g, r)
    decreases |Ids(|g|) - visited|, |frontier|
  {
    if frontier == {} then visited
    else
      var q := Pick(frontier);
      var added := EpsSucc(g, q) - visited;
      ExpandOne(g, visited, frontier, q);
      Explore(g, visited + added, frontier - {q} + added)
  }

  /** The epsilon-closure of a set of states: one search started from all of
      them. */
  ghost function ClosureOfSet(g: seq<NState>, s: set<StateId>): (r: set<StateId>)
    requires ValidGraph(g)
    requires InArena(s, |g|)
    ensures s <= r
    ensures EpsClosed(g, r)
  {
    Explore(g, s, s)
  }

  /** The epsilon-closure of one state (Java `epsilonClosure`). */
  ghost function Closure(g: seq<NState>, q: StateId): (r: set<StateId>)
    requires ValidGraph(g)
    requires q < |g|
    ensures q in r
    ensures EpsClosed(g, r)
  {
    ClosureOfSet(g, {q})
  }

  /** The search only ever adds states that every epsilon-closed superset of
      its starting set contains. */
  lemma {:induction false} ExploreLeast(g: seq<NState>, visited: set<StateId>, frontier: set<StateId>, s: set<StateId>)
    requires Searching(g, visited, frontier)
    requires visited <= s
    requires EpsClosed(g, s)
    ensures Explore(g, visited, frontier) <= s
    decreases |Ids(|g|) - visited|, |frontier|
  {
    if frontier != {} {
      var q := Pick(frontier);
      var added := EpsSucc(g, q) - visited;
      ExpandOne(g, visited, frontier, q);
      assert EpsSucc(g, q) <= s;
      ExploreLeast(g, visited + added, frontier - {q} + added, s);
    }
  }

  /** The closure of a set is the least epsilon-closed superset of it. */
  lemma ClosureOfSetLeast(g: seq<NState>, s: set<StateId>, c: set<StateId>)
    requires ValidGraph(g)
    requires InArena(s, |g|)
    requires s <= c
    requires EpsClosed(g, c)
    ensures ClosureOfSet(g, s) <= c
  {
    ExploreLeast(g, s, s, c);
  }

  /** The closure of `q` is the least epsilon-closed set containing `q`. */
  lemma ClosureLeast(g: seq<NState>, q: StateId, s: set<StateId>)
    requires ValidGraph(g)
    requires q < |g|
    requires q in s
    requires EpsClosed(g, s)
    ensures Closure(g, q) <= s
  {
    ClosureOfSetLeast(g, {q}, s);
  }

  /** Closing a set that is already closed adds nothing. */
  lemma ClosedIsOwnClosure(g: seq<NState>, s: set<StateId>)
    requires ValidGraph(g)
    requires EpsClosed(g, s)
    ensures ClosureOfSet(g, s) == s
  {
    ClosureOfSetLeast(g, s, s);
  }

  /** Closing twice is closing once. */
  lemma ClosureOfSetIdempotent(g: seq<NState>, s: set<StateId>)
    requires ValidGraph(g)
    requires InArena(s, |g|)
    ensures ClosureOfSet(g, ClosureOfSet(g, s)) == ClosureOfSet(g, s)
  {
    ClosedIsOwnClosure(g, ClosureOfSet(g, s));
  }

  /** Closing any member of a state's closure adds nothing to it. */
  lemma ClosureOfClosureMember(g: seq<NState>, q: StateId, p: StateId)
    requires ValidGraph(g)
    requires q < |g|
    requires p in Closure(g, q)
    ensures Closure(g, p) <= Closure(g, q)
  {
    ClosureLeast(g, p, Closure(g, q));
  }

  /** A larger set has a larger closure. */
  lemma ClosureOfSetMonotonic(g: seq<NState>, s: set<StateId>, t: set<StateId>)
    requires ValidGraph(g)
    requires InArena(t, |g|)
    requires s <= t
    ensures ClosureOfSet(g, s) <= ClosureOfSet(g, t)
  {
    ClosureOfSetLeast(g, s, ClosureOfSet(g, t));
  }

  /** `u` is in the closure of some member of `s`. */
  ghost predicate InSomeClosure(g: seq<NState>, s: set<StateId>, u: StateId)
    requires ValidGraph(g)
    requires InArena(s, |g|)
  {
    exists p :: p in s && u in Closure(g, p)
  }

  /** The union of the closures of the members of `s`. */
  ghost function UnionOfClosures(g: seq<NState>, s: set<StateId>): (r: set<StateId>)
    requires ValidGraph(g)
    requires InArena(s, |g|)
    ensures forall u :: u in r <==> InSomeClosure(g, s, u)
  {
    set u: StateId | u < |g| && InSomeClosure(g, s, u)
  }

  /** The union of the closures of the members of `s` is an epsilon-closed
      superset of `s`. */
  lemma UnionOfClosuresClosed(g: seq<NState>, s: set<StateId>)
    requires ValidGraph(g)
    requires InArena(s, |g|)
    ensures s <= UnionOfClosures(g, s)
    ensures EpsClosed(g, UnionOfClosures(g, s))
  {
    var union := UnionOfClosures(g, s);
    forall p | p in s
      ensures p in union
    {
      assert p in Closure(g, p);
      assert InSomeClosure(g, s, p);
    }
    forall u | u in union
      ensures u < |g| && EpsSucc(g, u) <= union
    {
      var p :| p in s && u in Closure(g, p);
      forall v | v in EpsSucc(g, u)
        ensures v in union
      {
        assert v in Closure(g, p);
        assert InSomeClosure(g, s, v);
      }
    }
  }

  /** Every state of the closure of a set is in the closure of one of its
      members. */
  lemma ClosureOfSetInUnion(g: seq<NState>, s: set<StateId>, t: StateId)
    requires ValidGraph(g)
    requires InArena(s, |g|)
    requires t in ClosureOfSet(g, s)
    ensures InSomeClosure(g, s, t)
  {
    UnionOfClosuresClosed(g, s);
    ClosureOfSetLeast(g, s, UnionOfClosures(g, s));
  }

  /** Closing a set in one search gives the union of the closures of its
      members, as `DFA.convertFrom` computes it state by state. */
  lemma ClosureOfSetIsUnion(g: seq<NState>, s: set<StateId>, t: StateId)
    requires ValidGraph(g)
    requires InArena(s, |g|)
    ensures t in ClosureOfSet(g, s) <==> exists p :: p in s && t in Closure(g, p)
  {
    if t in ClosureOfSet(g, s) {
      ClosureOfSetInUnion(g, s, t);
    }
    if p :| p in s && t in Closure(g, p) {
      ClosureOfSetMonotonic(g, {p}, s);
    }
  }

  /** A non-empty sequence of arena states in which each state is a direct
      epsilon successor of the one before. */
  ghost predicate EpsPath(g: seq<NState>, p: seq<StateId>)
  {
    && |p| > 0
    && (forall i | 0 <= i < |p| :: p[i] < |g|)
    && (forall i | 0 <= i < |p| - 1 :: p[i + 1] in EpsSucc(g, p[i]))
  }

  /** `t` is reachable from `q` by zero or more epsilon moves. */
  ghost predicate EpsReachable(g: seq<NState>, q: StateId, t: StateId)
  {
    exists p :: EpsPath(g, p) && p[0] == q && p[|p| - 1] == t
  }

  /** An epsilon-closed set containing the start of a path contains its end. */
  lemma {:induction false} ClosedContainsPathEnd(g: seq<NState>, p: seq<StateId>, s: set<StateId>)
    requires EpsPath(g, p)
    requires p[0] in s
    requires EpsClosed(g, s)
    ensures p[|p| - 1] in s
    decreases |p|
  {
    if |p| > 1 {
      var front := p[..|p| - 1];
      assert EpsPath(g, front);
      ClosedContainsPathEnd(g, front, s);
      assert p[|p| - 1] in EpsSucc(g, p[|p| - 2]);
    }
  }

  /** The closure of `q` holds exactly the states reachable from `q` by zero
      or more epsilon moves. */
  lemma ClosureIsReachability(g: seq<NState>, q: StateId, t: StateId)
    requires ValidGraph(g)
    requires q < |g|
    ensures t in Closure(g, q) <==> EpsReachable(g, q, t)
  {
    var reach := set u: nat | u < |g| && EpsReachable(g, q, u);
    assert EpsPath(g, [q]);
    assert q in reach;
    assert EpsClosed(g, reach) by {
      forall u | u in reach
        ensures u < |g| && EpsSucc(g, u) <= reach
      {
        forall v | v in EpsSucc(g, u)
          ensures v in reach
        {
          var p :| EpsPath(g, p) && p[0] == q && p[|p| - 1] == u;
          var p' := p + [v];
          assert EpsPath(g, p');
          assert EpsReachable(g, q, v);
        }
      }
    }
    ClosureLeast(g, q, reach);
    if EpsReachable(g, q, t) {
      var p :| EpsPath(g, p) && p[0] == q && p[|p| - 1] == t;
      ClosedContainsPathEnd(g, p, Closure(g, q));
    }
  }
}

=== FILE: common.dfy ===
/** Shared vocabulary of the automata model: state identity, input symbols,
    the failures the automata report, and small facts about finite sets and
    sequences that the other modules lean on.

    A state's identity is its index in an arena (a sequence of states): two
    states are the same entity exactly when they have the same index, whatever
    their display names are. */
module Common {

  /** Index of a state in its arena. */
  type StateId = nat

  /** A transition label. `Epsilon` is the label of moves that consume no
      input; every other label is a (usually one-character) string. */
  datatype Symbol = Epsilon | Sym(text: string)

  /** The symbol that an input character is looked up under. */
  function CharSymbol(c: char): (a: Symbol)
    ensures a != Epsilon
  {
    Sym([c])
  }

  datatype Option<T> = None | Some(value: T)

  /** The two failure kinds of the system: an invalid configuration of a
      table (no start state, no accept state) and a missing DFA transition. */
  datatype Error = NoStartState | NoAcceptState | MissingTransition

  datatype Result<T> = Success(value: T) | Failure(error: Error)

  /** All indices of an arena of size `n`. */
  function Ids(n: nat): (r: set<StateId>)
    ensures forall i: int :: i in r <==> 0 <= i < n
    ensures |r| == n
  {
    if n == 0 then {} else Ids(n - 1) + {n - 1}
  }

  /** Every member of `s` is a state of an arena of size `n`. */
  predicate InArena(s: set<StateId>, n: nat)
  {
    forall q | q in s :: q < n
  }

  /** The elements of a sequence, as a set. */
  function Elems<T>(s: seq<T>): set<T>
  {
    set x | x in s
  }

  /** No element occurs twice. */
  predicate Distinct<T(==)>(s: seq<T>)
  {
    forall i, j | 0 <= i < j < |s| :: s[i] != s[j]
  }

  /** Some element of a non-empty set. Wrapping the choice in a function makes
      every use of it pick the same element, so that a lemma can follow the
      choices a function made. */
  ghost function Pick<T>(s: set<T>): (x: T)
    requires s != {}
    ensures x in s
  {
    var x :| x in s; x
  }

  lemma SubsetNotLarger<T>(a: set<T>, b: set<T>)
    requires a <= b
    ensures |a| <= |b|
  {
    assert b == a + (b - a);
  }

  lemma ProperSubsetSmaller<T>(a: set<T>, b: set<T>)
    requires a < b
    ensures |a| < |b|
  {
    assert b - a != {} by {
      assert b == a + (b - a);
    }
    var x :| x in b - a;
    SubsetNotLarger(a, b - {x});
  }

  /** Adding states of the arena that were not yet visited shrinks the set of
      unvisited states: the measure of every visited-set-guarded search. */
  lemma UnvisitedShrinks(n: nat, visited: set<StateId>, added: set<StateId>)
    requires InArena(added, n)
    requires added !! visited
    requires added != {}
    ensures |Ids(n) - (visited + added)| < |Ids(n) - visited|
  {
    var x :| x in added;
    assert x in Ids(n) - visited;
    ProperSubsetSmaller(Ids(n) - (visited + added), Ids(n) - visited);
  }

  /** Growing `b` inside a finite universe `u` shrinks what is left of `u`:
      the measure of every search bounded by a finite universe. */
  lemma RemainderShrinks<T>(u: set<T>, a: set<T>, b: set<T>)
    requires a < b <= u
    ensures |u - b| < |u - a|
  {
    assert b - a != {} by {
      assert b == a + (b - a);
    }
    var x :| x in b - a;
    assert x in u - a;
    ProperSubsetSmaller(u - b, u - a);
  }

  /** Being a prefix is transitive. */
  lemma PrefixTransitive<T>(a: seq<T>, b: seq<T>, c: seq<T>)
    requires |a| <= |b| <= |c|
    requires b[..|a|] == a && c[..|b|] == b
    ensures c[..|a|] == a
  {
    assert c[..|a|] == c[..|b|][..|a|];
  }

  /** The sequence `f(0), ..., f(m - 1)`. */
  function Tabulate<T>(f: nat -> T, m: nat): (r: seq<T>)
    ensures |r| == m
    ensures forall k | 0 <= k < m :: r[k] == f(k)
  {
    if m == 0 then [] else Tabulate(f, m - 1) + [f(m - 1)]
  }

  /** The first position of `x` in `s`. */
  function Position<T(==)>(s: seq<T>, x: T): (k: nat)
    requires x in s
    ensures k < |s| && s[k] == x
    ensures forall j | 0 <= j < k :: s[j] != x
  {
    if s[0] == x then 0 else 1 + Position(s[1..], x)
  }

  /** `s` with every element after its first occurrence dropped. */
  function Dedup<T(==)>(s: seq<T>): (r: seq<T>)
    ensures Distinct(r)
    ensures Elems(r) == Elems(s)
  {
    if s == [] then []
    else
      var front := Dedup(s[..|s| - 1]);
      var x := s[|s| - 1];
      assert Elems(s) == Elems(s[..|s| - 1]) + {x} by {
        assert s == s[..|s| - 1] + [x];
      }
      if x in front then front else front + [x]
  }
}

=== FILE: convert.dfy ===
/** The DFA built by `DFA.convertFrom` from the member sets of the powerset
    construction, and the proof that it accepts what the NFA accepts. */
module Conversion {
  import opened Common
  import opened EpsilonClosure
  import opened Nfas
  import opened SubsetConstruction
  import NStates
  import DStates
  import Dfas
  import CompositeNames

  /** The dead state: named `{}`, with a self-loop on every input symbol. */
  function DeadState(sigma: set<Symbol>): (s: DStates.DState)
    ensures s.name == "{}"
    ensures forall a :: DStates.NextState(s, a) == if a in sigma then Some(0) else None
  {
    DStates.DState("{}", map a | a in sigma :: 0)
  }

  /** Member sets a DFA can be built over: the empty set first, then
      distinct epsilon-closed sets of arena states, among them the closure
      of the NFA start, such that every input symbol leads from each of them
      to one of them. */
  ghost predicate MemberSetsOk(n: Nfa, sets: seq<set<StateId>>)
    requires ValidNfa(n)
  {
    && |sets| > 0 && sets[0] == {}
    && Distinct(sets)
    && (forall k | 0 <= k < |sets| :: InArena(sets[k], |n.graph|) && EpsClosed(n.graph, sets[k]))
    && Closure(n.graph, n.start) in sets
    && (forall k, a {:trigger Step(n.graph, sets[k], a)} | 0 <= k < |sets| && a in InputSymbols(n) ::
          InArena(sets[k], |n.graph|) && Step(n.graph, sets[k], a) in sets)
  }

  /** `d` behaves as the NFA `n` through the member sets `sets`: state `k`
      of `d` stands for the set `sets[k]` of NFA states. Distinct states
      stand for distinct sets, the start stands for the closure of the NFA
      start, every input symbol (and only those) leads from the state of a
      set to the state of its closure-based step, and a state is accepting
      iff its set holds an accept state of `n`. */
  ghost predicate Simulates(n: Nfa, d: Dfas.Dfa, sets: seq<set<StateId>>)
    requires ValidNfa(n)
  {
    var g := n.graph;
    var sigma := InputSymbols(n);
    && DStates.ValidGraph(d.graph)
    && |d.graph| == |sets|
    && Distinct(sets)
    && (forall k | 0 <= k < |sets| :: InArena(sets[k], |g|) && EpsClosed(g, sets[k]))
    && d.start < |sets| && sets[d.start] == Closure(g, n.start)
    && (forall k | 0 <= k < |sets| :: d.graph[k].next.Keys == sigma)
    && (forall k, a {:trigger d.graph[k].next[a]} | 0 <= k < |sets| && a in sigma ::
          d.graph[k].next[a] < |sets| && sets[d.graph[k].next[a]] == Step(g, sets[k], a))
    && (forall k: nat | k < |sets| :: k in d.accept <==> sets[k] * n.accept != {})
  }

  /** The index of the first occurrence of `x` in `s`, or `|s|` when `x`
      does not occur. */
  function IndexOf<T(==)>(s: seq<T>, x: T): (k: nat)
    ensures k <= |s|
    ensures k < |s| <==> x in s
    ensures k < |s| ==> s[k] == x
  {
    if x in s then Position(s, x) else |s|
  }

  /** The state of the DFA standing for member set `sets[k]`: named after
      its members, leading under each input symbol to the state of the
      step's set. */
  ghost function CompositeState(n: Nfa, sets: seq<set<StateId>>, k: nat): (s: DStates.DState)
    requires ValidNfa(n)
    requires k < |sets| && InArena(sets[k], |n.graph|)
  {
    var g := n.graph;
    DStates.DState(CompositeNames.CompositeName(g, sets[k]),
                   map a | a in InputSymbols(n) :: IndexOf(sets, Step(g, sets[k], a)))
  }

  /** The state of the DFA at index `k`: the dead state at 0, composites
      after it. (An index that stands for no set of arena states gets the
      dead state too; no such index occurs in the arena.) */
  ghost function StateAt(n: Nfa, sets: seq<set<StateId>>, k: nat): DStates.DState
  {
    if k != 0 && ValidNfa(n) && k < |sets| && InArena(sets[k], |n.graph|)
    then CompositeState(n, sets, k)
    else DeadState(InputSymbols(n))
  }

  /** The arena of the DFA: one state per member set. */
  ghost function Arena(n: Nfa, sets: seq<set<StateId>>): seq<DStates.DState>
  {
    Tabulate(k => StateAt(n, sets, k), |sets|)
  }

  /** Nothing is reached in one step from no state. */
  lemma StepOfEmpty(g: seq<NStates.NState>, a: Symbol)
    requires NStates.ValidGraph(g)
    ensures Step(g, {}, a) == {}
  {
    assert Move(g, {}, a) == {};
    ClosedIsOwnClosure(g, {});
  }

  /** The state at index `k` leads, under exactly the input symbols, to the
      state of the step of `sets[k]`. */
  lemma StateAtSteps(n: Nfa, sets: seq<set<StateId>>, k: nat)
    requires ValidNfa(n)
    requires MemberSetsOk(n, sets)
    requires k < |sets|
    ensures StateAt(n, sets, k).next.Keys == InputSymbols(n)
    ensures forall a {:trigger StateAt(n, sets, k).next[a]} | a in InputSymbols(n) ::
              StateAt(n, sets, k).next[a] < |sets| && sets[StateAt(n, sets, k).next[a]] == Step(n.graph, sets[k], a)
  {
    var s := StateAt(n, sets, k);
    forall a | a in InputSymbols(n)
      ensures s.next[a] < |sets| && sets[s.next[a]] == Step(n.graph, sets[k], a)
    {
      if k == 0 {
        StepOfEmpty(n.graph, a);
        assert Step(n.graph, sets[k], a) == sets[0];
      } else {
        assert Step(n.graph, sets[k], a) in sets;
      }
    }
  }

  /** Each state of the arena leads, under exactly the input symbols, to the
      state of the step of its member set. */
  lemma ArenaSteps(n: Nfa, sets: seq<set<StateId>>)
    requires ValidNfa(n)
    requires MemberSetsOk(n, sets)
    ensures var graph := Arena(n, sets);
            && (forall k | 0 <= k < |sets| :: graph[k].next.Keys == InputSymbols(n))
            && (forall k, a {:trigger graph[k].next[a]} | 0 <= k < |sets| && a in InputSymbols(n) ::
                  graph[k].next[a] < |sets| && sets[graph[k].next[a]] == Step(n.graph, sets[k], a))
  {
    var graph := Arena(n, sets);
    forall k | 0 <= k < |sets|
      ensures graph[k].next.Keys == InputSymbols(n)
      ensures forall a {:trigger graph[k].next[a]} | a in InputSymbols(n) ::
                graph[k].next[a] < |sets| && sets[graph[k].next[a]] == Step(n.graph, sets[k], a)
    {
      assert graph[k] == StateAt(n, sets, k);
      StateAtSteps(n, sets, k);
    }
  }

  /** The arena built from member sets is well formed. */
  lemma ArenaValid(n: Nfa, sets: seq<set<StateId>>)
    requires ValidNfa(n)
    requires MemberSetsOk(n, sets)
    ensures |Arena(n, sets)| == |sets|
    ensures DStates.ValidGraph(Arena(n, sets))
  {
    ArenaSteps(n, sets);
  }

  /** The DFA over the arena built from `sets`: every state is given, the
      start is the state of the start's closure, and the accepting states
      are those whose set holds an accept state of the NFA. */
  ghost function Build(n: Nfa, sets: seq<set<StateId>>): (d: Dfas.Dfa)
    requires ValidNfa(n)
    requires MemberSetsOk(n, sets)
    ensures Simulates(n, d, sets)
    ensures Dfas.ValidDfa(d)
    ensures d.states == Ids(|d.graph|)
  {
    var graph := Arena(n, sets);
    var start := Position(sets, Closure(n.graph, n.start));
    var accept := set k: nat | k < |sets| && sets[k] * n.accept != {};
    ArenaSteps(n, sets);
    ArenaValid(n, sets);
    Dfas.MakeDfaKeepsWholeArena(graph, start, accept);
    Dfas.MakeDfa(graph, Ids(|graph|), start, accept)
  }

  /** `DFA.convertFrom`: the DFA over the dead state and the composites. It
      simulates the NFA through the member sets and gives all its states. */
  ghost function Convert(n: Nfa): (d: Dfas.Dfa)
    requires ValidNfa(n)
    ensures Dfas.ValidDfa(d)
    ensures Simulates(n, d, MemberSets(n))
    ensures d.states == Ids(|d.graph|)
  {
    var sets := MemberSets(n);
    assert MemberSetsOk(n, sets);
    Build(n, sets)
  }

  /** The arena of a DFA built from member sets: the dead state first, then
      one state per composite, named after the composite's members. */
  lemma BuildArena(n: Nfa, sets: seq<set<StateId>>)
    requires ValidNfa(n)
    requires MemberSetsOk(n, sets)
    ensures |Build(n, sets).graph| == |sets|
    ensures Build(n, sets).graph[0] == DeadState(InputSymbols(n))
    ensures forall k | 1 <= k < |sets| :: Build(n, sets).graph[k].name == CompositeNames.CompositeName(n.graph, sets[k])
  {
    var graph := Build(n, sets).graph;
    assert graph == Arena(n, sets);
    assert graph[0] == StateAt(n, sets, 0);
    forall k | 1 <= k < |sets|
      ensures graph[k].name == CompositeNames.CompositeName(n.graph, sets[k])
    {
      assert graph[k] == StateAt(n, sets, k);
    }
  }

  /** The arena of the converted DFA: the dead state first, then one state
      per composite, named after the composite's members. */
  lemma ConvertArena(n: Nfa)
    requires ValidNfa(n)
    ensures |Convert(n).graph| == |MemberSets(n)|
    ensures Convert(n).graph[0] == DeadState(InputSymbols(n))
    ensures forall k | 1 <= k < |Convert(n).graph| ::
              Convert(n).graph[k].name == CompositeNames.CompositeName(n.graph, MemberSets(n)[k])
  {
    var sets := MemberSets(n);
    assert MemberSetsOk(n, sets);
    BuildArena(n, sets);
  }

  /** Every character of `w` is an input symbol of `n`. */
  ghost predicate OverInputSymbols(n: Nfa, w: seq<char>)
  {
    forall i | 0 <= i < |w| :: CharSymbol(w[i]) in InputSymbols(n)
  }

  /** Walking a simulating DFA over input symbols never fails and ends in
      the state of the set the NFA reaches. */
  lemma {:induction false} SimulatedRun(n: Nfa, d: Dfas.Dfa, sets: seq<set<StateId>>, k: StateId, w: seq<char>)
    requires ValidNfa(n)
    requires Simulates(n, d, sets)
    requires k < |sets|
    requires OverInputSymbols(n, w)
    ensures Dfas.Run(d.graph, k, w).Success?
    ensures sets[Dfas.Run(d.graph, k, w).value] == Reach(n.graph, sets[k], w)
    decreases |w|
  {
    if w != [] {
      var a := CharSymbol(w[0]);
      assert a in InputSymbols(n);
      var p := d.graph[k].next[a];
      assert DStates.Walk(d.graph[k], a) == Success(p);
      assert OverInputSymbols(n, w[1..]) by {
        forall i | 0 <= i < |w[1..]|
          ensures CharSymbol(w[1..][i]) in InputSymbols(n)
        {
          assert w[1..][i] == w[i + 1];
        }
      }
      SimulatedRun(n, d, sets, p, w[1..]);
    }
  }

  /** A simulating DFA accepts an input over the input symbols iff the NFA
      does. */
  lemma SimulationPreservesLanguage(n: Nfa, d: Dfas.Dfa, sets: seq<set<StateId>>, w: seq<char>)
    requires ValidNfa(n)
    requires Simulates(n, d, sets)
    requires OverInputSymbols(n, w)
    ensures Dfas.ValidDfa(d)
    ensures Dfas.Input(d, w) == Success(Accepts(n, w))
  {
    SimulatedRun(n, d, sets, d.start, w);
  }

  /** The converted DFA accepts an input over the input symbols of the NFA
      iff the NFA accepts it. */
  lemma ConvertPreservesLanguage(n: Nfa, w: seq<char>)
    requires ValidNfa(n)
    requires OverInputSymbols(n, w)
    ensures Dfas.Input(Convert(n), w) == Success(Accepts(n, w))
  {
    SimulationPreservesLanguage(n, Convert(n), MemberSets(n), w);
  }

  /** A simulating DFA reports a missing transition for every input holding
      a character that is not an input symbol. */
  lemma SimulationRejectsForeignSymbols(n: Nfa, d: Dfas.Dfa, sets: seq<set<StateId>>, w: seq<char>)
    requires ValidNfa(n)
    requires Simulates(n, d, sets)
    requires !OverInputSymbols(n, w)
    ensures Dfas.ValidDfa(d)
    ensures Dfas.Input(d, w) == Failure(MissingTransition)
  {
    var i :| 0 <= i < |w| && CharSymbol(w[i]) !in InputSymbols(n);
    Dfas.RunFailsOutside(d.graph, InputSymbols(n), d.start, w, i);
  }

  /** The converted DFA reports a missing transition for every input holding
      a character that is not an input symbol of the NFA. */
  lemma ConvertRejectsForeignSymbols(n: Nfa, w: seq<char>)
    requires ValidNfa(n)
    requires !OverInputSymbols(n, w)
    ensures Dfas.Input(Convert(n), w) == Failure(MissingTransition)
  {
    SimulationRejectsForeignSymbols(n, Convert(n), MemberSets(n), w);
  }

  /** A step under a symbol no state of the set has an edge for reaches
      nothing. */
  lemma StepWithoutEdges(g: seq<NStates.NState>, s: set<StateId>, a: Symbol)
    requires NStates.ValidGraph(g)
    requires InArena(s, |g|)
    requires forall q | q in s :: NStates.Walk(g[q], a) == {}
    ensures Step(g, s, a) == {}
  {
    assert Move(g, s, a) == Move(g, {}, a);
    StepOfEmpty(g, a);
  }

  /** When no state of the arena has an edge for the character at position
      `i`, reading the input reaches nothing, whatever came before. */
  lemma {:induction false} ReachThroughForeign(g: seq<NStates.NState>, s: set<StateId>, w: seq<char>, i: nat)
    requires NStates.ValidGraph(g)
    requires InArena(s, |g|)
    requires i < |w|
    requires forall q | 0 <= q < |g| :: NStates.Walk(g[q], CharSymbol(w[i])) == {}
    ensures Reach(g, s, w) == {}
    decreases i
  {
    var next := Step(g, s, CharSymbol(w[0]));
    if i == 0 {
      StepWithoutEdges(g, s, CharSymbol(w[0]));
      EmptyReachesEmpty(g, w[1..]);
    } else {
      assert w[1..][i - 1] == w[i];
      ReachThroughForeign(g, next, w[1..], i - 1);
    }
  }

  /** Given its whole arena, as `NFA.createFrom` builds it, an automaton
      rejects every input holding a character that is not an input symbol:
      no edge carries that character, so the active set empties there and
      stays empty. On such an automaton the missing transition the
      converted DFA reports stands where the NFA rejects. */
  lemma WholeArenaRejectsForeignSymbols(g: seq<NStates.NState>, start: StateId, accept: set<StateId>, w: seq<char>)
    requires NStates.ValidGraph(g)
    requires start < |g|
    requires !OverInputSymbols(MakeNfa(g, Ids(|g|), start, accept), w)
    ensures !Accepts(MakeNfa(g, Ids(|g|), start, accept), w)
  {
    var n := MakeNfa(g, Ids(|g|), start, accept);
    var i :| 0 <= i < |w| && CharSymbol(w[i]) !in InputSymbols(n);
    forall q | 0 <= q < |g|
      ensures NStates.Walk(g[q], CharSymbol(w[i])) == {}
    {
      assert q in Ids(|g|);
    }
    ReachThroughForeign(g, Closure(g, start), w, i);
  }

  /** The arena p0 -a-> p1 -b-> p2. */
  function ChainArena(): (g: seq<NStates.NState>)
    ensures NStates.ValidGraph(g)
  {
    [NStates.NState("p0", map[Sym("a") := {1}]), NStates.NState("p1", map[Sym("b") := {2}]),
     NStates.NState("p2", map[])]
  }

  /** Started at p0, the chain arena reaches exactly p2 on "ab". */
  lemma ChainArenaReach()
    ensures Closure(ChainArena(), 0) == {0}
    ensures Reach(ChainArena(), {0}, "ab") == {2}
  {
    var g := ChainArena();
    assert EpsSucc(g, 0) == {} && EpsSucc(g, 1) == {} && EpsSucc(g, 2) == {};
    ClosureLeast(g, 0, {0});
    assert Move(g, {0}, Sym("a")) == {1} by {
      assert NStates.Walk(g[0], Sym("a")) == {1};
    }
    ClosedIsOwnClosure(g, {1});
    assert Move(g, {1}, Sym("b")) == {2} by {
      assert NStates.Walk(g[1], Sym("b")) == {2};
    }
    ClosedIsOwnClosure(g, {2});
    assert "ab"[1..] == "b";
  }

  /** Given only part of its arena, an automaton may accept an input the
      converted DFA cannot walk. In the chain arena with only p0 given, `b`
      is no input symbol: `NFA.input` accepts "ab", while the DFA reports a
      missing transition, where Java's `convertFrom` result throws. */
  lemma PartialArenaAcceptsForeignSymbol(n: Nfa)
    requires n == MakeNfa(ChainArena(), {0}, 0, {2})
    ensures ValidNfa(n)
    ensures InputAsWritten(n, "ab")
    ensures Dfas.Input(Convert(n), "ab") == Failure(MissingTransition)
  {
    var g := ChainArena();
    ChainArenaReach();
    assert Accepts(n, "ab");
    assert CharSymbol("ab"[1]) !in InputSymbols(n) by {
      assert NStates.Walk(g[0], Sym("b")) == {};
    }
    ConvertRejectsForeignSymbols(n, "ab");
  }

  /** In a simulating DFA, the state standing for the empty set rejects and
      every input over the input symbols leads from it back to it. */
  lemma {:induction false} SimulationEmptyStateAbsorbs(n: Nfa, d: Dfas.Dfa, sets: seq<set<StateId>>, k: StateId, w: seq<char>)
    requires ValidNfa(n)
    requires Simulates(n, d, sets)
    requires k < |sets| && sets[k] == {}
    requires OverInputSymbols(n, w)
    ensures k < |d.graph| && k !in d.accept
    ensures Dfas.Run(d.graph, k, w) == Success(k)
  {
    SimulatedRun(n, d, sets, k, w);
    EmptyReachesEmpty(n.graph, w);
    var q := Dfas.Run(d.graph, k, w).value;
    assert sets[q] == sets[k];
    assert k !in d.accept by {
      assert sets[k] * n.accept == {};
    }
  }

  /** The dead state of the converted DFA rejects and never leaves itself:
      every input over the input symbols walks from it back to it. */
  lemma DeadStateAbsorbs(n: Nfa, w: seq<char>)
    requires ValidNfa(n)
    requires OverInputSymbols(n, w)
    ensures 0 < |Convert(n).graph|
    ensures 0 !in Convert(n).accept
    ensures Dfas.Run(Convert(n).graph, 0, w) == Success(0)
  {
    SimulationEmptyStateAbsorbs(n, Convert(n), MemberSets(n), 0, w);
  }

  /** Nothing is reached from no state. */
  lemma {:induction false} EmptyReachesEmpty(g: seq<NStates.NState>, w: seq<char>)
    requires NStates.ValidGraph(g)
    ensures Reach(g, {}, w) == {}
    decreases |w|
  {
    if w != [] {
      StepOfEmpty(g, CharSymbol(w[0]));
      EmptyReachesEmpty(g, w[1..]);
    }
  }

  /** `DFA.convertFrom` as written. With an input symbol it builds the DFA
      of `Convert`. Without one, no worklist entry is ever turned into a
      state: the DFA holds the dead state alone, and its start is a fresh
      state that is neither among its states nor accepting and has no
      transitions: it rejects the empty input and reports a missing
      transition on any other. */
  ghost function ConvertAsWritten(n: Nfa): (d: Dfas.Dfa)
    requires ValidNfa(n)
    ensures Dfas.ValidDfa(d)
    ensures InputSymbols(n) != {} ==> forall w | OverInputSymbols(n, w) :: Dfas.Input(d, w) == Success(Accepts(n, w))
    ensures InputSymbols(n) == {} ==> d.start !in d.states
    ensures InputSymbols(n) == {} ==> forall w :: Dfas.Input(d, w) == if w == [] then Success(false) else Failure(MissingTransition)
  {
    if InputSymbols(n) != {} then
      forall w | OverInputSymbols(n, w)
        ensures Dfas.Input(Convert(n), w) == Success(Accepts(n, w))
      {
        ConvertPreservesLanguage(n, w);
      }
      Convert(n)
    else
      var d := Dfas.MakeDfa([DeadState({}), DStates.NewDState("")], {0}, 1, {});
      assert d.states == {0} by {
        assert DStates.NextStates(DeadState({})) == {};
      }
      d
  }

  /** An automaton whose only state accepts and has no edges: the NFA
      accepts the empty input, the DFA built as written rejects it. */
  lemma AsWrittenRejectsWithoutSymbols()
    ensures var n := Nfa([NStates.NState("p0", map[])], {0}, 0, {0}, {});
            && ValidNfa(n)
            && Accepts(n, [])
            && Dfas.Input(ConvertAsWritten(n), []) == Success(false)
  {
    var n := Nfa([NStates.NState("p0", map[])], {0}, 0, {0}, {});
    assert InputSymbols(n) == {};
    assert 0 in Closure(n.graph, 0);
  }
}

=== FILE: dfa.dfy ===
/** The deterministic automaton: its container and its simulator. */
module Dfas {
  import opened Common
  import opened DStates

  /** An automaton over an arena `graph`. */
  datatype Dfa = Dfa(graph: seq<DState>, states: set<StateId>, start: StateId, accept: set<StateId>)

  ghost predicate ValidDfa(d: Dfa)
  {
    ValidGraph(d.graph) && d.start < |d.graph|
  }

  /** The constructor: keeps the given states and adds their direct
      successors (one level, not the transitive closure). */
  function MakeDfa(g: seq<DState>, given: set<StateId>, start: StateId, accept: set<StateId>): (d: Dfa)
    requires InArena(given, |g|)
    ensures d.graph == g && d.start == start && d.accept == accept
    ensures forall t :: t in d.states <==> t in given || exists q :: q in given && t in NextStates(g[q])
  {
    Dfa(g, given + set q, t | q in given && t in NextStates(g[q]) :: t, start, accept)
  }

  /** Given every state of a well-formed arena, the constructor keeps
      exactly those: it adds no state of its own. */
  lemma MakeDfaKeepsWholeArena(g: seq<DState>, start: StateId, accept: set<StateId>)
    requires ValidGraph(g)
    ensures MakeDfa(g, Ids(|g|), start, accept).states == Ids(|g|)
  {
    forall q | q in Ids(|g|)
      ensures NextStates(g[q]) <= Ids(|g|)
    {
      forall t | t in NextStates(g[q])
        ensures t in Ids(|g|)
      {
        var a :| NextState(g[q], a) == Some(t);
      }
    }
  }

  /** Some symbol of `alphabet` leads from `q` to `t`. */
  ghost predicate Labelled(g: seq<DState>, alphabet: set<Symbol>, q: StateId, t: StateId)
    requires q < |g|
  {
    exists a :: a in alphabet && NextState(g[q], a) == Some(t)
  }

  /** The alphabet the constructor collects: for every given state and every
      distinct successor of it, ONE symbol leading there. A symbol whose
      target is also reached under another symbol may therefore be missed.
      The alphabet is kept apart from `Dfa`: only `DFA.toString`
      (DFA.java:271-278) reads it, and neither `input` nor the conversion
      does, so no other member uses it. */
  method CollectAlphabet(g: seq<DState>, given: set<StateId>) returns (alphabet: set<Symbol>)
    requires InArena(given, |g|)
    ensures forall a | a in alphabet :: exists q :: q in given && a in g[q].next
    ensures forall q, t | q in given && t in NextStates(g[q]) :: Labelled(g, alphabet, q, t)
  {
    alphabet := {};
    var todo := given;
    while todo != {}
      invariant todo <= given
      invariant forall a | a in alphabet :: exists q :: q in given && a in g[q].next
      invariant forall q, t | q in given - todo && t in NextStates(g[q]) :: Labelled(g, alphabet, q, t)
      decreases todo
    {
      var q :| q in todo;
      var succs := NextStates(g[q]);
      var rest := succs;
      while rest != {}
        invariant rest <= succs
        invariant forall a | a in alphabet :: exists p :: p in given && a in g[p].next
        invariant forall p, t | p in given - todo && t in NextStates(g[p]) :: Labelled(g, alphabet, p, t)
        invariant forall t | t in succs - rest :: Labelled(g, alphabet, q, t)
        decreases rest
      {
        var t :| t in rest;
        var found := FindSymbolToState(g[q], t);
        ghost var before := alphabet;
        alphabet := alphabet + {found.value};
        assert Labelled(g, alphabet, q, t);
        assert forall p: nat, u: nat | p < |g| && Labelled(g, before, p, u) :: Labelled(g, alphabet, p, u) by {
          forall p: nat, u: nat | p < |g| && Labelled(g, before, p, u)
            ensures Labelled(g, alphabet, p, u)
          {
            var a :| a in before && NextState(g[p], a) == Some(u);
            assert a in alphabet;
          }
        }
        rest := rest - {t};
      }
      todo := todo - {q};
    }
  }

  /** The state reached from `q` by walking the characters of `w` in order,
      or the missing-transition failure at the first character without a
      successor. */
  function Run(g: seq<DState>, q: StateId, w: seq<char>): (r: Result<StateId>)
    requires ValidGraph(g)
    requires q < |g|
    ensures r.Success? ==> r.value < |g|
    ensures r.Failure? ==> r.error == MissingTransition
    decreases |w|
  {
    if w == [] then Success(q)
    else
      match Walk(g[q], CharSymbol(w[0]))
      case Failure(e) => Failure(e)
      case Success(p) => Run(g, p, w[1..])
  }

  /** `DFA.input`: whether the state reached is accepting. The empty input
      decides on the start state alone. */
  function Input(d: Dfa, w: seq<char>): (r: Result<bool>)
    requires ValidDfa(d)
    ensures w == [] ==> r == Success(d.start in d.accept)
    ensures forall q :: Run(d.graph, d.start, w) == Success(q) ==> r == Success(q in d.accept)
    ensures r.Failure? ==> r.error == MissingTransition
    ensures r.Success? <==> Run(d.graph, d.start, w).Success?
  {
    match Run(d.graph, d.start, w)
    case Failure(e) => Failure(e)
    case Success(q) => Success(q in d.accept)
  }

  /** Walking `u + v` is walking `u`, then walking `v` from where `u` ended. */
  lemma {:induction false} RunAppend(g: seq<DState>, q: StateId, u: seq<char>, v: seq<char>)
    requires ValidGraph(g)
    requires q < |g|
    ensures Run(g, q, u + v) == match Run(g, q, u)
                                 case Failure(e) => Failure(e)
                                 case Success(p) => Run(g, p, v)
    decreases |u|
  {
    if u == [] {
      assert u + v == v;
    } else {
      assert (u + v)[0] == u[0];
      assert (u + v)[1..] == u[1..] + v;
      match Walk(g[q], CharSymbol(u[0]))
      case Failure(e) =>
      case Success(p) => RunAppend(g, p, u[1..], v);
    }
  }

  /** The walk fails as soon as it reaches a state without a successor for
      the next character, whatever follows. */
  lemma RunStopsAtMissingTransition(g: seq<DState>, q: StateId, u: seq<char>, c: char, v: seq<char>)
    requires ValidGraph(g)
    requires q < |g|
    requires Run(g, q, u).Success?
    requires NextState(g[Run(g, q, u).value], CharSymbol(c)).None?
    ensures Run(g, q, u + [c] + v) == Failure(MissingTransition)
  {
    RunAppend(g, q, u, [c] + v);
    assert u + [c] + v == u + ([c] + v);
  }

  /** The states of the arena that have a successor for every symbol of
      `sigma`. */
  ghost predicate TotalOver(g: seq<DState>, sigma: set<Symbol>)
  {
    forall p, a | 0 <= p < |g| && a in sigma :: a in g[p].next
  }

  /** On an arena with a successor for every symbol of `sigma`, a walk over
      characters whose symbols are in `sigma` never fails. */
  lemma {:induction false} RunTotal(g: seq<DState>, sigma: set<Symbol>, q: StateId, w: seq<char>)
    requires ValidGraph(g)
    requires TotalOver(g, sigma)
    requires q < |g|
    requires forall i | 0 <= i < |w| :: CharSymbol(w[i]) in sigma
    ensures Run(g, q, w).Success?
    decreases |w|
  {
    if w != [] {
      assert CharSymbol(w[0]) in sigma;
      var p := g[q].next[CharSymbol(w[0])];
      RunTotal(g, sigma, p, w[1..]);
    }
  }

  /** A walk over an arena whose states only have successors for symbols of
      `sigma` fails as soon as the input holds a character outside `sigma`,
      wherever it stands. */
  lemma {:induction false} RunFailsOutside(g: seq<DState>, sigma: set<Symbol>, q: StateId, w: seq<char>, i: nat)
    requires ValidGraph(g)
    requires forall p | 0 <= p < |g| :: g[p].next.Keys <= sigma
    requires q < |g|
    requires i < |w| && CharSymbol(w[i]) !in sigma
    ensures Run(g, q, w) == Failure(MissingTransition)
    decreases i
  {
    if i > 0 {
      match Walk(g[q], CharSymbol(w[0]))
      case Failure(e) =>
      case Success(p) =>
        assert w[1..][i - 1] == w[i];
        RunFailsOutside(g, sigma, p, w[1..], i - 1);
    }
  }
}

=== FILE: dfaloader.dfy ===
/** `DFA.createFrom`: builds a deterministic automaton from a transition
    table.

    The walk is that of `NFA.createFrom`, with one target name per cell. A
    transition replaces the successor of the row's state under the column's
    symbol, so when a table gives a state two targets under one symbol (two
    rows of the same name, or two columns of the same symbol) the one the
    walk meets last wins.

    The name lookup (`Named`, `UniqueNames`, `FindState`, `Intern`,
    `AcceptStates`) is that of `NfaLoader` over deterministic states, as
    `DFA.findState` repeats `NFA.findState`. */
module DfaLoader {
  import opened Common
  import opened DStates
  import opened Dfas
  import opened Tables

  /** Some state of the arena is called `x`. */
  ghost predicate Named(g: seq<DState>, x: string)
  {
    exists q :: 0 <= q < |g| && g[q].name == x
  }

  /** No two states of the arena share a name. */
  ghost predicate UniqueNames(g: seq<DState>)
  {
    forall p, q | 0 <= p < |g| && 0 <= q < |g| && g[p].name == g[q].name :: p == q
  }

  /** The named transition relation: the state called `f` moves to a state
      called `t` under `a`. */
  ghost predicate HasEdge(g: seq<DState>, f: string, a: Symbol, t: string)
  {
    exists p, q :: 0 <= p < |g| && 0 <= q < |g| && g[p].name == f && g[q].name == t && NextState(g[p], a) == Some(q)
  }

  /** `findState`: a state with the given name, or `None` when there is none.
      Among unique names the state found is the only one of that name. */
  function FindState(g: seq<DState>, name: string): (r: Option<StateId>)
    ensures r.Some? ==> r.value < |g| && g[r.value].name == name
    ensures r.None? <==> !Named(g, name)
    ensures UniqueNames(g) ==> forall q | 0 <= q < |g| && g[q].name == name :: r == Some(q)
  {
    if g == [] then None
    else if g[|g| - 1].name == name then Some(|g| - 1)
    else
      var r := FindState(g[..|g| - 1], name);
      assert Named(g, name) ==> Named(g[..|g| - 1], name) by {
        if q :| 0 <= q < |g| && g[q].name == name {
          assert g[..|g| - 1][q] == g[q];
        }
      }
      r
  }

  /** Looks up the state called `name`, creating it at the end of the arena
      when there is none. */
  function Intern(g: seq<DState>, name: string): (r: (seq<DState>, StateId))
    ensures r.1 < |r.0| && r.0[r.1].name == name
    ensures Named(g, name) ==> r.0 == g
    ensures !Named(g, name) ==> r.0 == g + [NewDState(name)]
  {
    match FindState(g, name)
    case Some(q) => (g, q)
    case None => (g + [NewDState(name)], |g|)
  }

  /** Interning keeps the arena well formed and its names unique. */
  lemma InternKeepsShape(g: seq<DState>, name: string)
    requires ValidGraph(g)
    requires UniqueNames(g)
    ensures ValidGraph(Intern(g, name).0)
    ensures UniqueNames(Intern(g, name).0)
    ensures forall x :: Named(Intern(g, name).0, x) <==> Named(g, x) || x == name
  {
    var g1 := Intern(g, name).0;
    if !Named(g, name) {
      assert g1 == g + [NewDState(name)];
      forall x | Named(g1, x)
        ensures Named(g, x) || x == name
      {
        var q :| 0 <= q < |g1| && g1[q].name == x;
        if q < |g| {
          assert g[q] == g1[q];
        }
      }
      forall x | Named(g, x)
        ensures Named(g1, x)
      {
        var q :| 0 <= q < |g| && g[q].name == x;
        assert g1[q] == g[q];
      }
      assert g1[|g|].name == name;
    }
  }

  /** Interning adds no transition. */
  lemma InternKeepsEdges(g: seq<DState>, name: string, f: string, a: Symbol, t: string)
    requires ValidGraph(g)
    ensures HasEdge(Intern(g, name).0, f, a, t) <==> HasEdge(g, f, a, t)
  {
    var g1 := Intern(g, name).0;
    if !Named(g, name) {
      if HasEdge(g1, f, a, t) {
        var p, q :| 0 <= p < |g1| && 0 <= q < |g1| && g1[p].name == f && g1[q].name == t && NextState(g1[p], a) == Some(q);
        assert p < |g|;
        assert g1[p] == g[p];
        assert q < |g|;
        assert g1[q] == g[q];
      }
      if HasEdge(g, f, a, t) {
        var p, q :| 0 <= p < |g| && 0 <= q < |g| && g[p].name == f && g[q].name == t && NextState(g[p], a) == Some(q);
        assert g1[p] == g[p] && g1[q] == g[q];
      }
    }
  }

  /** One entry of the walk: look up (or create) a state, or make the
      (looked up or created) target the successor of the row's state. */
  function ApplyEntry(g: seq<DState>, e: Entry<string, Symbol>): (r: seq<DState>)
    ensures |g| <= |r|
  {
    match e
    case Mention(x) => Intern(g, x).0
    case Link(f, a, t) =>
      var (g1, p) := Intern(g, f);
      var (g2, q) := Intern(g1, t);
      g2[p := PutNextState(g2[p], a, q)]
  }

  /** Recording a transition keeps the arena well formed and its names
      unique, and names exactly the states it interned. */
  lemma LinkKeepsShape(g: seq<DState>, f: string, a: Symbol, t: string)
    requires ValidGraph(g)
    requires UniqueNames(g)
    ensures ValidGraph(ApplyEntry(g, Link(f, a, t)))
    ensures UniqueNames(ApplyEntry(g, Link(f, a, t)))
    ensures forall x :: Named(ApplyEntry(g, Link(f, a, t)), x) <==> Named(g, x) || x == f || x == t
  {
    var (g1, p) := Intern(g, f);
    InternKeepsShape(g, f);
    var (g2, q) := Intern(g1, t);
    InternKeepsShape(g1, t);
    var g3 := g2[p := PutNextState(g2[p], a, q)];
    assert ApplyEntry(g, Link(f, a, t)) == g3;
    assert forall k | 0 <= k < |g3| :: g3[k].name == g2[k].name;
    forall k, b | 0 <= k < |g3| && b in g3[k].next
      ensures g3[k].next[b] < |g3|
    {
      if k == p && b == a {
        assert NextState(g3[k], b) == Some(q);
      } else {
        assert NextState(g3[k], b) == NextState(g2[k], b);
      }
    }
    forall x | Named(g3, x)
      ensures Named(g2, x)
    {
      var k :| 0 <= k < |g3| && g3[k].name == x;
      assert g2[k].name == x;
    }
    forall x | Named(g2, x)
      ensures Named(g3, x)
    {
      var k :| 0 <= k < |g2| && g2[k].name == x;
      assert g3[k].name == x;
    }
  }

  /** Two arenas with the same names whose states called `f` have the same
      successor under `a` have the same transitions from `f` under `a`. */
  lemma SameEdgesFrom(g: seq<DState>, g1: seq<DState>, f: string, a: Symbol, t: string)
    requires |g1| == |g|
    requires forall k | 0 <= k < |g| :: g1[k].name == g[k].name
    requires forall k | 0 <= k < |g| && g[k].name == f :: NextState(g1[k], a) == NextState(g[k], a)
    ensures HasEdge(g1, f, a, t) <==> HasEdge(g, f, a, t)
  {
    if HasEdge(g, f, a, t) {
      var k, m :| 0 <= k < |g| && 0 <= m < |g| && g[k].name == f && g[m].name == t && NextState(g[k], a) == Some(m);
      assert g1[k].name == f && g1[m].name == t && NextState(g1[k], a) == Some(m);
    }
    if HasEdge(g1, f, a, t) {
      var k, m :| 0 <= k < |g1| && 0 <= m < |g1| && g1[k].name == f && g1[m].name == t && NextState(g1[k], a) == Some(m);
      assert g[k].name == f && g[m].name == t && NextState(g[k], a) == Some(m);
    }
  }

  /** Making `q` the successor of `p` under `a0` keeps every transition
      from another state or under another symbol. */
  lemma PutKeepsEdges(g: seq<DState>, p: StateId, a0: Symbol, q: StateId, f: string, a: Symbol, t: string)
    requires p < |g| && q < |g|
    requires f != g[p].name || a != a0
    ensures HasEdge(g[p := PutNextState(g[p], a0, q)], f, a, t) <==> HasEdge(g, f, a, t)
  {
    var g1 := g[p := PutNextState(g[p], a0, q)];
    forall k | 0 <= k < |g| && g[k].name == f
      ensures NextState(g1[k], a) == NextState(g[k], a)
    {
      if k == p {
        assert a != a0;
      }
    }
    SameEdgesFrom(g, g1, f, a, t);
  }

  /** Among unique names, making `q` the successor of `p` under `a0` leaves
      the name of `q` as the only target of the name of `p` under `a0`. */
  lemma PutReplacesEdge(g: seq<DState>, p: StateId, a0: Symbol, q: StateId, t: string)
    requires p < |g| && q < |g|
    requires UniqueNames(g)
    ensures HasEdge(g[p := PutNextState(g[p], a0, q)], g[p].name, a0, t) <==> t == g[q].name
  {
    var g1 := g[p := PutNextState(g[p], a0, q)];
    assert forall k | 0 <= k < |g1| :: g1[k].name == g[k].name;
    if HasEdge(g1, g[p].name, a0, t) {
      var k, m :| 0 <= k < |g1| && 0 <= m < |g1| && g1[k].name == g[p].name && g1[m].name == t && NextState(g1[k], a0) == Some(m);
      assert k == p;
    }
    assert NextState(g1[p], a0) == Some(q);
  }

  /** Among unique names, recording a transition from `f0` under `a0` makes
      `t0` the only target of `f0` under `a0`, and changes nothing else. */
  lemma LinkEdges(g: seq<DState>, f0: string, a0: Symbol, t0: string, f: string, a: Symbol, t: string)
    requires ValidGraph(g)
    requires UniqueNames(g)
    ensures HasEdge(ApplyEntry(g, Link(f0, a0, t0)), f, a, t) <==>
              if f == f0 && a == a0 then t == t0 else HasEdge(g, f, a, t)
  {
    var (g1, p) := Intern(g, f0);
    InternKeepsShape(g, f0);
    InternKeepsEdges(g, f0, f, a, t);
    var (g2, q) := Intern(g1, t0);
    InternKeepsShape(g1, t0);
    InternKeepsEdges(g1, t0, f, a, t);
    assert g2[p] == g1[p];
    if f == f0 && a == a0 {
      PutReplacesEdge(g2, p, a0, q, t);
    } else {
      PutKeepsEdges(g2, p, a0, q, f, a, t);
    }
  }

  /** The walk over a sequence of entries. */
  function Load(g: seq<DState>, es: seq<Entry<string, Symbol>>): (r: seq<DState>)
    ensures |g| <= |r|
  {
    if es == [] then g else ApplyEntry(Load(g, es[..|es| - 1]), es[|es| - 1])
  }

  /** The walk keeps the arena well formed and its names unique, and names a
      state for every name the entries mention. */
  lemma {:induction false} LoadShape(g: seq<DState>, es: seq<Entry<string, Symbol>>)
    requires ValidGraph(g)
    requires UniqueNames(g)
    ensures ValidGraph(Load(g, es))
    ensures UniqueNames(Load(g, es))
    ensures forall x :: Named(Load(g, es), x) <==> Named(g, x) || x in Mentioned(es)
    decreases |es|
  {
    if es != [] {
      var front := es[..|es| - 1];
      var e := es[|es| - 1];
      LoadShape(g, front);
      var h := Load(g, front);
      assert Mentioned(es) == Mentioned(front) + EntryNames(e);
      match e
      case Mention(x) => InternKeepsShape(h, x);
      case Link(f, a, t) => LinkKeepsShape(h, f, a, t);
    }
  }

  /** After the walk, the target of `f` under `a` is the one of the last
      transition the entries record from `f` under `a`; without such a
      transition it is what it was before the walk. */
  lemma {:induction false} LoadEdges(g: seq<DState>, es: seq<Entry<string, Symbol>>, f: string, a: Symbol, t: string)
    requires ValidGraph(g)
    requires UniqueNames(g)
    ensures HasEdge(Load(g, es), f, a, t) <==>
              match LastTarget(es, f, a)
              case Some(last) => t == last
              case None => HasEdge(g, f, a, t)
    decreases |es|
  {
    if es != [] {
      var front := es[..|es| - 1];
      var e := es[|es| - 1];
      assert es == front + [e];
      LoadEdges(g, front, f, a, t);
      LoadShape(g, front);
      LastTargetSnoc(front, e, f, a);
      var h := Load(g, front);
      match e
      case Mention(x) => InternKeepsEdges(h, x, f, a, t);
      case Link(f0, a0, t0) => LinkEdges(h, f0, a0, t0, f, a, t);
    }
  }

  /** The arena that the walk over a table builds from nothing. */
  function LoadTable(tb: DfaTable<string, Symbol>): (g: seq<DState>)
    requires DfaShaped(tb)
  {
    Load([], DfaEntries(tb.symbols, tb.rows))
  }

  /** The arena of a table is well formed, names each state once, names
      exactly the names the table uses, and moves the state called `f` to a
      state called `t` under `a` exactly when `t` is in the last cell of the
      rows of `f` under `a`. */
  lemma LoadTableShape(tb: DfaTable<string, Symbol>)
    requires DfaShaped(tb)
    ensures ValidGraph(LoadTable(tb))
    ensures UniqueNames(LoadTable(tb))
    ensures forall x :: Named(LoadTable(tb), x) <==> DfaNamed(tb, x)
    ensures forall f, a, t :: HasEdge(LoadTable(tb), f, a, t) <==> DfaLists(tb, f, a, t)
  {
    var es := DfaEntries(tb.symbols, tb.rows);
    LoadShape([], es);
    forall x
      ensures Named(LoadTable(tb), x) <==> DfaNamed(tb, x)
    {
      DfaEntriesNames(tb, x);
    }
    forall f, a, t
      ensures HasEdge(LoadTable(tb), f, a, t) <==> DfaLists(tb, f, a, t)
    {
      LoadEdges([], es, f, a, t);
      DfaEntriesTarget(tb, f, a, t);
    }
  }

  /** The accept states: every state whose name is listed as accepting. */
  function AcceptStates(g: seq<DState>, acceptNames: seq<string>): (r: set<StateId>)
    ensures forall q: StateId :: q in r <==> q < |g| && g[q].name in acceptNames
    ensures r == {} <==> forall x | x in acceptNames :: !Named(g, x)
  {
    assert (exists x :: x in acceptNames && Named(g, x)) ==> exists q: StateId :: q < |g| && g[q].name in acceptNames by {
      if x :| x in acceptNames && Named(g, x) {
        var q :| 0 <= q < |g| && g[q].name == x;
      }
    }
    set q: StateId | q < |g| && g[q].name in acceptNames
  }

  /** `DFA.createFrom`. Fails with `NoStartState` exactly when the table
      never uses the start name, and otherwise with `NoAcceptState` exactly
      when it uses none of the accepting names. On success the automaton
      holds one state per name the table uses, starts at the state of the
      start name, accepts at the states of the accepting names, and its
      transitions are the last ones the table gives. */
  function CreateFrom(tb: DfaTable<string, Symbol>, startName: string, acceptNames: seq<string>): (r: Result<Dfa>)
    requires DfaShaped(tb)
    ensures r == Failure(NoStartState) <==> !DfaNamed(tb, startName)
    ensures r == Failure(NoAcceptState) <==> DfaNamed(tb, startName) && forall x | x in acceptNames :: !DfaNamed(tb, x)
    ensures r.Success? ==>
              && ValidDfa(r.value)
              && UniqueNames(r.value.graph)
              && r.value.states == Ids(|r.value.graph|)
              && r.value.graph[r.value.start].name == startName
              && (forall q: StateId :: q in r.value.accept <==> q < |r.value.graph| && r.value.graph[q].name in acceptNames)
              && (forall x :: Named(r.value.graph, x) <==> DfaNamed(tb, x))
              && (forall f, a, t :: HasEdge(r.value.graph, f, a, t) <==> DfaLists(tb, f, a, t))
  {
    var g := LoadTable(tb);
    LoadTableShape(tb);
    match FindState(g, startName)
    case None => Failure(NoStartState)
    case Some(s) =>
      var accept := AcceptStates(g, acceptNames);
      if accept == {} then Failure(NoAcceptState)
      else
        MakeDfaKeepsWholeArena(g, s, accept);
        Success(MakeDfa(g, Ids(|g|), s, accept))
  }
}

=== FILE: dstate.dfy ===
/** A state of a deterministic automaton: a display name and, per symbol, at
    most one successor state (an index into the arena). */
module DStates {
  import opened Common

  datatype DState = DState(name: string, next: map<Symbol, StateId>)

  /** Every successor of every state of the arena is a state of the arena. */
  ghost predicate ValidGraph(g: seq<DState>)
  {
    forall q, a | 0 <= q < |g| && a in g[q].next :: g[q].next[a] < |g|
  }

  /** A freshly constructed state has no transitions at all. */
  function NewDState(name: string): (s: DState)
    ensures s.name == name
    ensures forall a :: NextState(s, a) == None && Walk(s, a) == Failure(MissingTransition)
    ensures NextStates(s) == {}
  {
    DState(name, map[])
  }

  /** The successor under `a`, or `None` (Java's null) when there is none. */
  function NextState(s: DState, a: Symbol): (r: Option<StateId>)
    ensures r.None? <==> a !in s.next
    ensures r.Some? ==> r.value == s.next[a]
  {
    if a in s.next then Some(s.next[a]) else None
  }

  /** Makes `t` the successor under `a`, replacing any previous one. */
  function PutNextState(s: DState, a: Symbol, t: StateId): (r: DState)
    ensures r.name == s.name
    ensures NextState(r, a) == Some(t)
    ensures forall b | b != a :: NextState(r, b) == NextState(s, b)
  {
    DState(s.name, s.next[a := t])
  }

  /** The set of all successors, whatever the symbol. */
  function NextStates(s: DState): (r: set<StateId>)
    ensures forall t :: t in r <==> exists a :: NextState(s, a) == Some(t)
  {
    var r := s.next.Values;
    assert forall t :: t in r <==> exists a :: NextState(s, a) == Some(t) by {
      forall t
        ensures t in r <==> exists a :: NextState(s, a) == Some(t)
      {
        if t in r {
          var a :| a in s.next && s.next[a] == t;
          assert NextState(s, a) == Some(t);
        }
      }
    }
    r
  }

  /** The unique successor under `a`, or the missing-transition failure when
      `a` has none. */
  function Walk(s: DState, a: Symbol): (r: Result<StateId>)
    ensures r.Success? <==> NextState(s, a).Some?
    ensures r.Success? ==> NextState(s, a) == Some(r.value)
    ensures r.Failure? ==> r.error == MissingTransition
  {
    match NextState(s, a)
    case None => Failure(MissingTransition)
    case Some(t) => Success(t)
  }

  /** Some symbol leading to `t`, or `None` when no symbol does. When several
      symbols lead to `t` only one of them is reported; which one is left
      open, as the iteration order of a hash map is. */
  method FindSymbolToState(s: DState, t: StateId) returns (r: Option<Symbol>)
    ensures r.Some? ==> NextState(s, r.value) == Some(t)
    ensures r.None? <==> t !in NextStates(s)
  {
    if a :| a in s.next && s.next[a] == t {
      assert NextState(s, a) == Some(t);
      r := Some(a);
    } else {
      r := None;
    }
  }

  /** A later put under the same symbol overwrites an earlier one. */
  lemma PutOverwrites(s: DState, a: Symbol, t1: StateId, t2: StateId)
    ensures PutNextState(PutNextState(s, a, t1), a, t2) == PutNextState(s, a, t2)
  {
    assert s.next[a := t1][a := t2] == s.next[a := t2];
  }
}

=== FILE: names.dfy ===
/** Display names of composite states built by the subset construction.

    A composite is rendered by appending "name, " for every member to "{",
    stripping surrounding whitespace, and replacing the final comma by "}".
    The names are for display only: composites are told apart by their
    member sets, never by these strings. */
module CompositeNames {
  import opened Common
  import opened NStates

  /** The characters Java's `Character.isWhitespace` accepts: the space,
      line and paragraph separators other than the non-breaking ones, and the
      control characters U+0009-U+000D and U+001C-U+001F. */
  predicate IsWhitespace(c: char)
  {
    var x := c as int;
    || 0x09 <= x <= 0x0D
    || 0x1C <= x <= 0x20
    || x == 0x1680
    || 0x2000 <= x <= 0x2006
    || 0x2008 <= x <= 0x200A
    || x == 0x2028 || x == 0x2029 || x == 0x205F || x == 0x3000
  }

  function StripLeading(s: string): (r: string)
    ensures r == [] || !IsWhitespace(r[0])
    ensures |r| <= |s| && r == s[|s| - |r|..]
  {
    if s != [] && IsWhitespace(s[0]) then StripLeading(s[1..]) else s
  }

  function StripTrailing(s: string): (r: string)
    ensures r == [] || !IsWhitespace(r[|r| - 1])
    ensures |r| <= |s| && r == s[..|r|]
  {
    if s != [] && IsWhitespace(s[|s| - 1]) then StripTrailing(s[..|s| - 1]) else s
  }

  /** Java's `String.strip`. */
  function Strip(s: string): string
  {
    StripTrailing(StripLeading(s))
  }

  /** Every name followed by ", ", in order: the loop of the renderer. */
  function Listing(ns: seq<string>): string
  {
    if ns == [] then "" else Listing(ns[..|ns| - 1]) + ns[|ns| - 1] + ", "
  }

  /** The names separated by ", ". */
  function Join(ns: seq<string>): string
    requires ns != []
  {
    if |ns| == 1 then ns[0] else Join(ns[..|ns| - 1]) + ", " + ns[|ns| - 1]
  }

  lemma {:induction false} ListingIsJoinPlusSeparator(ns: seq<string>)
    requires ns != []
    ensures Listing(ns) == Join(ns) + ", "
    decreases |ns|
  {
    if |ns| == 1 {
      assert ns[..0] == [];
    } else {
      ListingIsJoinPlusSeparator(ns[..|ns| - 1]);
    }
  }

  /** Stripping the opened listing of non-empty names drops the trailing
      space only; cutting the comma off then leaves the opening brace and
      the joined names. */
  lemma StripListing(ns: seq<string>)
    requires ns != []
    ensures var t := Strip("{" + Listing(ns));
            |t| > 1 && t[..|t| - 1] == "{" + Join(ns)
  {
    var s := "{" + Listing(ns);
    ListingIsJoinPlusSeparator(ns);
    var body := "{" + Join(ns) + ",";
    assert s == body + " ";
    assert StripLeading(s) == s;
    assert !IsWhitespace(body[|body| - 1]);
    assert s[..|s| - 1] == body;
    assert StripTrailing(s) == StripTrailing(body);
    assert body[..|body| - 1] == "{" + Join(ns);
  }

  /** The opened listing of no names strips to the brace alone. */
  lemma StripEmptyListing()
    ensures Strip("{" + Listing([])) == "{"
  {
    assert Listing([]) == "";
    assert "{" + Listing([]) == "{";
    assert !IsWhitespace('{');
    assert StripLeading("{") == "{";
    assert StripTrailing("{") == "{";
  }

  /** The renderer of DFA.convertFrom. A non-empty list of names renders as
      the names separated by ", " inside braces; the empty list renders as
      the empty string. */
  function Render(ns: seq<string>): (r: string)
    ensures ns != [] ==> r == "{" + Join(ns) + "}"
    ensures ns == [] ==> r == ""
  {
    var t := Strip("{" + Listing(ns));
    assert ns != [] ==> |t| > 1 && t[..|t| - 1] == "{" + Join(ns) by {
      if ns != [] {
        StripListing(ns);
      }
    }
    assert ns == [] ==> t == "{" by {
      if ns == [] {
        StripEmptyListing();
      }
    }
    if |t| > 1 then t[..|t| - 1] + "}" else ""
  }

  /** The members of `s` below `size`, in ascending order. */
  function AscendingIds(s: set<StateId>, size: nat): (r: seq<StateId>)
    ensures forall q :: q in r <==> q in s && q < size
    ensures forall i | 0 <= i < |r| :: r[i] in s && r[i] < size
    ensures forall i, j | 0 <= i < j < |r| :: r[i] < r[j]
  {
    if size == 0 then []
    else
      var front := AscendingIds(s, size - 1);
      front + (if size - 1 in s then [size - 1] else [])
  }

  /** The names of the members of `s` that are arena states, in ascending
      state order. There is one exactly when `s` holds an arena state. */
  function MemberNames(g: seq<NState>, s: set<StateId>): (r: seq<string>)
    ensures |r| == |AscendingIds(s, |g|)|
    ensures forall i | 0 <= i < |r| :: r[i] == g[AscendingIds(s, |g|)[i]].name
    ensures r != [] <==> exists q :: q in s && q < |g|
  {
    var ids := AscendingIds(s, |g|);
    assert ids != [] <==> exists q :: q in s && q < |g| by {
      if q :| q in s && q < |g| {
        assert q in ids;
      }
      if ids != [] {
        assert ids[0] in s && ids[0] < |g|;
      }
    }
    seq(|ids|, i requires 0 <= i < |ids| => g[ids[i]].name)
  }

  /** The display name of the composite holding the states of `s`: the
      names of its members, in ascending state order, separated by ", "
      inside braces; the empty string when it holds no state. */
  function CompositeName(g: seq<NState>, s: set<StateId>): (r: string)
    ensures (exists q :: q in s && q < |g|) ==> r == "{" + Join(MemberNames(g, s)) + "}"
    ensures (forall q | q in s :: q >= |g|) ==> r == ""
  {
    Render(MemberNames(g, s))
  }
}

=== FILE: nfa.dfy ===
/** The nondeterministic automaton: its container and its acceptance.

    Two acceptance semantics are modelled. `Accepts` is the closure-based one:
    the active set starts as the epsilon-closure of the start state and is
    re-closed after every symbol. `InputAsWritten` is what `NFA.input` does:
    it starts from the bare start state and closes the active set around
    every symbol. The two differ exactly on the empty input, where
    `NFA.input` never looks past the start state. */
module Nfas {
  import opened Common
  import opened NStates
  import opened EpsilonClosure

  /** An automaton over an arena `graph`. `alphabet` holds the labels of the
      edges leaving the states the automaton was built from, epsilon
      included. */
  datatype Nfa = Nfa(graph: seq<NState>, states: set<StateId>, start: StateId,
                     accept: set<StateId>, alphabet: set<Symbol>)

  ghost predicate ValidNfa(n: Nfa)
  {
    ValidGraph(n.graph) && n.start < |n.graph|
  }

  /** The constructor: keeps the given states, adds their direct successors
      (one level, not the transitive closure), and collects the labels of
      the edges leaving the given states. */
  function MakeNfa(g: seq<NState>, given: set<StateId>, start: StateId, accept: set<StateId>): (n: Nfa)
    requires InArena(given, |g|)
    ensures n.graph == g && n.start == start && n.accept == accept
    ensures forall t :: t in n.states <==> t in given || exists q :: q in given && t in NextStates(g[q])
    ensures forall a :: a in n.alphabet <==> exists q :: q in given && Walk(g[q], a) != {}
  {
    var states := given + set q, t | q in given && t in NextStates(g[q]) :: t;
    var alphabet := set q, t, a | q in given && t in NextStates(g[q]) && a in FindSymbolToState(g[q], t) :: a;
    assert forall a :: a in alphabet <==> exists q :: q in given && Walk(g[q], a) != {} by {
      forall a
        ensures a in alphabet <==> exists q :: q in given && Walk(g[q], a) != {}
      {
        if q :| q in given && Walk(g[q], a) != {} {
          var t :| t in Walk(g[q], a);
          assert a in FindSymbolToState(g[q], t);
          assert t in NextStates(g[q]);
        }
      }
    }
    Nfa(g, states, start, accept, alphabet)
  }

  /** Given every state of a well-formed arena, the constructor keeps
      exactly those: it adds no state of its own. */
  lemma MakeNfaKeepsWholeArena(g: seq<NState>, start: StateId, accept: set<StateId>)
    requires ValidGraph(g)
    ensures MakeNfa(g, Ids(|g|), start, accept).states == Ids(|g|)
  {
    forall q | q in Ids(|g|)
      ensures NextStates(g[q]) <= Ids(|g|)
    {
      forall t | t in NextStates(g[q])
        ensures t in Ids(|g|)
      {
        var a :| a in FindSymbolToState(g[q], t);
      }
    }
  }

  /** The union of the successors under `a` of the members of `s`. */
  function Move(g: seq<NState>, s: set<StateId>, a: Symbol): (r: set<StateId>)
    requires ValidGraph(g)
    requires InArena(s, |g|)
    ensures InArena(r, |g|)
  {
    set q, t | q in s && t in Walk(g[q], a) :: t
  }

  /** One closure-based step: move under `a`, then close. */
  ghost function Step(g: seq<NState>, s: set<StateId>, a: Symbol): (r: set<StateId>)
    requires ValidGraph(g)
    requires InArena(s, |g|)
    ensures EpsClosed(g, r)
  {
    ClosureOfSet(g, Move(g, s, a))
  }

  /** The active set after reading `w` from the active set `s`. */
  ghost function Reach(g: seq<NState>, s: set<StateId>, w: seq<char>): (r: set<StateId>)
    requires ValidGraph(g)
    requires InArena(s, |g|)
    ensures InArena(r, |g|)
    decreases |w|
  {
    if w == [] then s else Reach(g, Step(g, s, CharSymbol(w[0])), w[1..])
  }

  /** Closure-based acceptance: the active set, started at the closure of the
      start state, meets the accept states after the whole input. */
  ghost function Accepts(n: Nfa, w: seq<char>): bool
    requires ValidNfa(n)
  {
    Reach(n.graph, Closure(n.graph, n.start), w) * n.accept != {}
  }

  /** Reading `u` then `v` is reading `u + v`. */
  lemma {:induction false} ReachAppend(g: seq<NState>, s: set<StateId>, u: seq<char>, v: seq<char>)
    requires ValidGraph(g)
    requires InArena(s, |g|)
    ensures Reach(g, s, u + v) == Reach(g, Reach(g, s, u), v)
    decreases |u|
  {
    if u == [] {
      assert u + v == v;
    } else {
      assert (u + v)[1..] == u[1..] + v;
      ReachAppend(g, Step(g, s, CharSymbol(u[0])), u[1..], v);
    }
  }

  /** The active set of the closure-based semantics stays epsilon-closed. */
  lemma {:induction false} ReachStaysClosed(g: seq<NState>, s: set<StateId>, w: seq<char>)
    requires ValidGraph(g)
    requires EpsClosed(g, s)
    ensures EpsClosed(g, Reach(g, s, w))
    decreases |w|
  {
    if w != [] {
      ReachStaysClosed(g, Step(g, s, CharSymbol(w[0])), w[1..]);
    }
  }

  /** One step of `NFA.input`: extend the active states by their epsilon
      successors (the list grows while it is walked, so this is their
      closure), collect the successors under the character, and extend those
      by their epsilon successors in the same way. */
  ghost function StepAsWritten(g: seq<NState>, s: set<StateId>, c: char): (r: set<StateId>)
    requires ValidGraph(g)
    requires InArena(s, |g|)
    ensures InArena(r, |g|)
  {
    ClosureOfSet(g, Move(g, ClosureOfSet(g, s), CharSymbol(c)))
  }

  /** The active states of `NFA.input` after reading `w` from `s`. */
  ghost function ReachAsWritten(g: seq<NState>, s: set<StateId>, w: seq<char>): (r: set<StateId>)
    requires ValidGraph(g)
    requires InArena(s, |g|)
    ensures InArena(r, |g|)
    decreases |w|
  {
    if w == [] then s else ReachAsWritten(g, StepAsWritten(g, s, w[0]), w[1..])
  }

  /** From an epsilon-closed active set, `NFA.input` steps as the
      closure-based semantics does. */
  lemma {:induction false} ClosedReachAsWritten(g: seq<NState>, s: set<StateId>, w: seq<char>)
    requires ValidGraph(g)
    requires EpsClosed(g, s)
    ensures ReachAsWritten(g, s, w) == Reach(g, s, w)
    decreases |w|
  {
    if w != [] {
      ClosedIsOwnClosure(g, s);
      ClosedReachAsWritten(g, Step(g, s, CharSymbol(w[0])), w[1..]);
    }
  }

  /** After at least one character, the active states of `NFA.input` are
      those of the closure-based semantics started at the closure. */
  lemma AsWrittenReach(g: seq<NState>, s: set<StateId>, w: seq<char>)
    requires ValidGraph(g)
    requires InArena(s, |g|)
    requires w != []
    ensures ReachAsWritten(g, s, w) == Reach(g, ClosureOfSet(g, s), w)
  {
    var first := StepAsWritten(g, s, w[0]);
    assert first == Step(g, ClosureOfSet(g, s), CharSymbol(w[0]));
    ClosedReachAsWritten(g, first, w[1..]);
  }

  /** `NFA.input`: true iff an active state is accepting after the input.
      After at least one character it decides the closure-based acceptance;
      on the empty input only the start state itself is looked at. */
  ghost function InputAsWritten(n: Nfa, w: seq<char>): (r: bool)
    requires ValidNfa(n)
    ensures w != [] ==> (r <==> Accepts(n, w))
    ensures w == [] ==> (r <==> n.start in n.accept)
  {
    var g := n.graph;
    assert w != [] ==> ReachAsWritten(g, {n.start}, w) == Reach(g, Closure(g, n.start), w) by {
      if w != [] {
        AsWrittenReach(g, {n.start}, w);
      }
    }
    assert w == [] ==> ({n.start} * n.accept != {} <==> n.start in n.accept) by {
      assert n.start in n.accept ==> n.start in {n.start} * n.accept;
    }
    ReachAsWritten(g, {n.start}, w) * n.accept != {}
  }

  /** `NFA.input` with the active states epsilon-closed before acceptance
      is decided: it decides the closure-based acceptance on every input,
      and agrees with `NFA.input` whenever the input is not empty. */
  ghost function InputCorrected(n: Nfa, w: seq<char>): (r: bool)
    requires ValidNfa(n)
    ensures r <==> Accepts(n, w)
    ensures w != [] ==> r == InputAsWritten(n, w)
  {
    var g := n.graph;
    var active := ReachAsWritten(g, {n.start}, w);
    assert ClosureOfSet(g, active) == Reach(g, Closure(g, n.start), w) by {
      if w != [] {
        AsWrittenReach(g, {n.start}, w);
        ReachStaysClosed(g, Closure(g, n.start), w);
        ClosedIsOwnClosure(g, active);
      }
    }
    ClosureOfSet(g, active) * n.accept != {}
  }

  /** No state of the arena has an epsilon move. */
  ghost predicate EpsilonFree(g: seq<NState>)
  {
    forall q | 0 <= q < |g| :: EpsSucc(g, q) == {}
  }

  /** Without epsilon moves the closure of a state is the state alone. */
  lemma EpsilonFreeClosure(g: seq<NState>, q: StateId)
    requires ValidGraph(g)
    requires EpsilonFree(g)
    requires q < |g|
    ensures Closure(g, q) == {q}
  {
    assert EpsClosed(g, {q});
    ClosureLeast(g, q, {q});
  }

  /** On an automaton without epsilon moves, `NFA.input` decides exactly the
      closure-based acceptance, the empty input included. */
  lemma EpsilonFreeInputAgrees(n: Nfa, w: seq<char>)
    requires ValidNfa(n)
    requires EpsilonFree(n.graph)
    ensures InputAsWritten(n, w) == Accepts(n, w)
  {
    EpsilonFreeClosure(n.graph, n.start);
  }

  /** A two-state automaton whose start state reaches the accept state by an
      epsilon move: the closure-based semantics accepts the empty input,
      `NFA.input` rejects it. */
  lemma AsWrittenMissesEpsilonOnEmptyInput()
    ensures var g := [NState("p0", map[Epsilon := {1}]), NState("p1", map[])];
            var n := Nfa(g, {0, 1}, 0, {1}, {Epsilon});
            ValidNfa(n) && Accepts(n, []) && !InputAsWritten(n, [])
  {
    var g := [NState("p0", map[Epsilon := {1}]), NState("p1", map[])];
    var n := Nfa(g, {0, 1}, 0, {1}, {Epsilon});
    assert ValidGraph(g);
    assert EpsSucc(g, 0) == {1};
    assert 1 in Closure(g, 0);
  }
}

=== FILE: nfaloader.dfy ===
/** `NFA.createFrom`: builds an automaton from a transition table.

    The loader walks the table's entries in order (see `Tables`). A state is
    looked up by name and created when no state of that name exists yet, so
    a name stands for one state however often it occurs. A transition adds
    its target to the successors of the row's state under the column's
    symbol. Afterwards the start state is the state named like the start
    name, and the accept states are the states whose names are listed as
    accepting.

    `DfaLoader` repeats the name lookup (`Named`, `UniqueNames`,
    `FindState`, `Intern`, `AcceptStates`) over deterministic states, as
    `DFA.findState` repeats `NFA.findState`; the two differ only in the
    state type and in how a transition is recorded. */
module NfaLoader {
  import opened Common
  import opened NStates
  import opened Nfas
  import opened Tables

  /** Some state of the arena is called `x`. */
  ghost predicate Named(g: seq<NState>, x: string)
  {
    exists q :: 0 <= q < |g| && g[q].name == x
  }

  /** No two states of the arena share a name. */
  ghost predicate UniqueNames(g: seq<NState>)
  {
    forall p, q | 0 <= p < |g| && 0 <= q < |g| && g[p].name == g[q].name :: p == q
  }

  /** The named transition relation: a state called `f` moves to a state
      called `t` under `a`. */
  ghost predicate HasEdge(g: seq<NState>, f: string, a: Symbol, t: string)
  {
    exists p, q :: 0 <= p < |g| && 0 <= q < |g| && g[p].name == f && g[q].name == t && q in Walk(g[p], a)
  }

  /** `findState`: a state with the given name, or `None` when there is none.
      Among unique names the state found is the only one of that name. */
  function FindState(g: seq<NState>, name: string): (r: Option<StateId>)
    ensures r.Some? ==> r.value < |g| && g[r.value].name == name
    ensures r.None? <==> !Named(g, name)
    ensures UniqueNames(g) ==> forall q | 0 <= q < |g| && g[q].name == name :: r == Some(q)
  {
    if g == [] then None
    else if g[|g| - 1].name == name then Some(|g| - 1)
    else
      var r := FindState(g[..|g| - 1], name);
      assert Named(g, name) ==> Named(g[..|g| - 1], name) by {
        if q :| 0 <= q < |g| && g[q].name == name {
          assert g[..|g| - 1][q] == g[q];
        }
      }
      r
  }

  /** Looks up the state called `name`, creating it at the end of the arena
      when there is none. The arena only ever grows by that one new state. */
  function Intern(g: seq<NState>, name: string): (r: (seq<NState>, StateId))
    ensures r.1 < |r.0| && r.0[r.1].name == name
    ensures Named(g, name) ==> r.0 == g
    ensures !Named(g, name) ==> r.0 == g + [NewNState(name)]
  {
    match FindState(g, name)
    case Some(q) => (g, q)
    case None => (g + [NewNState(name)], |g|)
  }

  /** Interning keeps the arena well formed and its names unique. */
  lemma InternKeepsShape(g: seq<NState>, name: string)
    requires ValidGraph(g)
    requires UniqueNames(g)
    ensures ValidGraph(Intern(g, name).0)
    ensures UniqueNames(Intern(g, name).0)
    ensures forall x :: Named(Intern(g, name).0, x) <==> Named(g, x) || x == name
  {
    var g1 := Intern(g, name).0;
    if !Named(g, name) {
      assert g1 == g + [NewNState(name)];
      forall x | Named(g1, x)
        ensures Named(g, x) || x == name
      {
        var q :| 0 <= q < |g1| && g1[q].name == x;
        if q < |g| {
          assert g[q] == g1[q];
        }
      }
      forall x | Named(g, x)
        ensures Named(g1, x)
      {
        var q :| 0 <= q < |g| && g[q].name == x;
        assert g1[q] == g[q];
      }
      assert g1[|g|].name == name;
    }
  }

  /** Interning adds no transition. */
  lemma InternKeepsEdges(g: seq<NState>, name: string, f: string, a: Symbol, t: string)
    requires ValidGraph(g)
    ensures HasEdge(Intern(g, name).0, f, a, t) <==> HasEdge(g, f, a, t)
  {
    var g1 := Intern(g, name).0;
    if !Named(g, name) {
      if HasEdge(g1, f, a, t) {
        var p, q :| 0 <= p < |g1| && 0 <= q < |g1| && g1[p].name == f && g1[q].name == t && q in Walk(g1[p], a);
        assert p < |g|;
        assert g1[p] == g[p];
        assert q < |g|;
        assert g1[q] == g[q];
      }
      if HasEdge(g, f, a, t) {
        var p, q :| 0 <= p < |g| && 0 <= q < |g| && g[p].name == f && g[q].name == t && q in Walk(g[p], a);
        assert g1[p] == g[p] && g1[q] == g[q];
      }
    }
  }

  /** One entry of the walk: look up (or create) a state, or record the
      transition from the row's state to the (looked up or created) target. */
  function ApplyEntry(g: seq<NState>, e: Entry<string, Symbol>): (r: seq<NState>)
    ensures |g| <= |r|
  {
    match e
    case Mention(x) => Intern(g, x).0
    case Link(f, a, t) =>
      var (g1, p) := Intern(g, f);
      var (g2, q) := Intern(g1, t);
      g2[p := PutNextState(g2[p], a, q).0]
  }

  /** Putting `q` among the successors of `p` keeps the arena well formed,
      its names unique and its names as they were. */
  lemma PutKeepsShape(g: seq<NState>, p: StateId, a: Symbol, q: StateId)
    requires ValidGraph(g)
    requires UniqueNames(g)
    requires p < |g| && q < |g|
    ensures ValidGraph(g[p := PutNextState(g[p], a, q).0])
    ensures UniqueNames(g[p := PutNextState(g[p], a, q).0])
    ensures forall x :: Named(g[p := PutNextState(g[p], a, q).0], x) <==> Named(g, x)
  {
    var g1 := g[p := PutNextState(g[p], a, q).0];
    assert forall k | 0 <= k < |g1| :: g1[k].name == g[k].name;
    forall k, b | 0 <= k < |g1| && b in g1[k].next
      ensures InArena(g1[k].next[b], |g1|)
    {
      if k == p && b == a {
        assert g1[k].next[b] == Walk(g[p], a) + {q};
      } else {
        assert Walk(g1[k], b) == Walk(g[k], b);
      }
    }
    forall x | Named(g1, x)
      ensures Named(g, x)
    {
      var k :| 0 <= k < |g1| && g1[k].name == x;
      assert g[k].name == x;
    }
    forall x | Named(g, x)
      ensures Named(g1, x)
    {
      var k :| 0 <= k < |g| && g[k].name == x;
      assert g1[k].name == x;
    }
  }

  /** Recording a transition keeps the arena well formed and its names
      unique, and names exactly the states it interned. */
  lemma LinkKeepsShape(g: seq<NState>, f: string, a: Symbol, t: string)
    requires ValidGraph(g)
    requires UniqueNames(g)
    ensures ValidGraph(ApplyEntry(g, Link(f, a, t)))
    ensures UniqueNames(ApplyEntry(g, Link(f, a, t)))
    ensures forall x :: Named(ApplyEntry(g, Link(f, a, t)), x) <==> Named(g, x) || x == f || x == t
  {
    var (g1, p) := Intern(g, f);
    InternKeepsShape(g, f);
    var (g2, q) := Intern(g1, t);
    InternKeepsShape(g1, t);
    assert ApplyEntry(g, Link(f, a, t)) == g2[p := PutNextState(g2[p], a, q).0];
    PutKeepsShape(g2, p, a, q);
  }

  /** Putting `q` among the successors of `p` under `a0` keeps every
      transition. */
  lemma PutKeepsEdges(g: seq<NState>, p: StateId, a0: Symbol, q: StateId, f: string, a: Symbol, t: string)
    requires p < |g| && q < |g|
    requires HasEdge(g, f, a, t)
    ensures HasEdge(g[p := PutNextState(g[p], a0, q).0], f, a, t)
  {
    var g1 := g[p := PutNextState(g[p], a0, q).0];
    var k, m :| 0 <= k < |g| && 0 <= m < |g| && g[k].name == f && g[m].name == t && m in Walk(g[k], a);
    PutWalk(g[p], a0, q, a);
    assert g1[m].name == t;
    if k == p {
      assert m in Walk(g1[p], a);
    } else {
      assert g1[k] == g[k];
    }
  }

  /** Putting `q` among the successors of `p` under `a0` adds the
      transition between their names, and no other. */
  lemma PutAddsEdge(g: seq<NState>, p: StateId, a0: Symbol, q: StateId, f: string, a: Symbol, t: string)
    requires p < |g| && q < |g|
    ensures HasEdge(g[p := PutNextState(g[p], a0, q).0], g[p].name, a0, g[q].name)
    ensures HasEdge(g[p := PutNextState(g[p], a0, q).0], f, a, t) ==>
              HasEdge(g, f, a, t) || (f, a, t) == (g[p].name, a0, g[q].name)
  {
    var g1 := g[p := PutNextState(g[p], a0, q).0];
    PutWalk(g[p], a0, q, a0);
    assert q in Walk(g1[p], a0);
    assert g1[p].name == g[p].name && g1[q].name == g[q].name;
    if HasEdge(g1, f, a, t) {
      var k, m :| 0 <= k < |g1| && 0 <= m < |g1| && g1[k].name == f && g1[m].name == t && m in Walk(g1[k], a);
      assert g[m].name == t;
      if k != p {
        assert g1[k] == g[k];
      } else {
        PutWalk(g[p], a0, q, a);
        if a != a0 || m != q {
          assert m in Walk(g[k], a);
        }
      }
    }
  }

  /** Recording a transition adds exactly that transition. */
  lemma LinkEdges(g: seq<NState>, f0: string, a0: Symbol, t0: string, f: string, a: Symbol, t: string)
    requires ValidGraph(g)
    requires UniqueNames(g)
    ensures HasEdge(ApplyEntry(g, Link(f0, a0, t0)), f, a, t) <==> HasEdge(g, f, a, t) || (f, a, t) == (f0, a0, t0)
  {
    var (g1, p) := Intern(g, f0);
    InternKeepsShape(g, f0);
    InternKeepsEdges(g, f0, f, a, t);
    var (g2, q) := Intern(g1, t0);
    InternKeepsEdges(g1, t0, f, a, t);
    assert g2[p] == g1[p];
    if HasEdge(g2, f, a, t) {
      PutKeepsEdges(g2, p, a0, q, f, a, t);
    }
    PutAddsEdge(g2, p, a0, q, f, a, t);
  }

  /** The walk over a sequence of entries. */
  function Load(g: seq<NState>, es: seq<Entry<string, Symbol>>): (r: seq<NState>)
    ensures |g| <= |r|
  {
    if es == [] then g else ApplyEntry(Load(g, es[..|es| - 1]), es[|es| - 1])
  }

  /** The walk keeps the arena well formed and its names unique, and names a
      state for every name the entries mention. */
  lemma {:induction false} LoadShape(g: seq<NState>, es: seq<Entry<string, Symbol>>)
    requires ValidGraph(g)
    requires UniqueNames(g)
    ensures ValidGraph(Load(g, es))
    ensures UniqueNames(Load(g, es))
    ensures forall x :: Named(Load(g, es), x) <==> Named(g, x) || x in Mentioned(es)
    decreases |es|
  {
    if es != [] {
      var front := es[..|es| - 1];
      var e := es[|es| - 1];
      LoadShape(g, front);
      var h := Load(g, front);
      assert Mentioned(es) == Mentioned(front) + EntryNames(e);
      match e
      case Mention(x) => InternKeepsShape(h, x);
      case Link(f, a, t) => LinkKeepsShape(h, f, a, t);
    }
  }

  /** The walk records exactly the transitions of the entries. */
  lemma {:induction false} LoadEdges(g: seq<NState>, es: seq<Entry<string, Symbol>>, f: string, a: Symbol, t: string)
    requires ValidGraph(g)
    requires UniqueNames(g)
    ensures HasEdge(Load(g, es), f, a, t) <==> HasEdge(g, f, a, t) || Link(f, a, t) in es
    decreases |es|
  {
    if es != [] {
      var front := es[..|es| - 1];
      var e := es[|es| - 1];
      assert es == front + [e];
      LoadEdges(g, front, f, a, t);
      LoadShape(g, front);
      var h := Load(g, front);
      match e
      case Mention(x) => InternKeepsEdges(h, x, f, a, t);
      case Link(f0, a0, t0) => LinkEdges(h, f0, a0, t0, f, a, t);
    }
  }

  /** The arena that the walk over a table builds from nothing. */
  function LoadTable(tb: NfaTable<string, Symbol>): (g: seq<NState>)
    requires NfaShaped(tb)
  {
    Load([], NfaEntries(tb.symbols, tb.rows))
  }

  /** The arena of a table is well formed, names each state once, names
      exactly the names the table uses, and moves a state called `f` to a
      state called `t` under `a` exactly when a row of `f` lists `t` in a
      column of `a`. */
  lemma LoadTableShape(tb: NfaTable<string, Symbol>)
    requires NfaShaped(tb)
    ensures ValidGraph(LoadTable(tb))
    ensures UniqueNames(LoadTable(tb))
    ensures forall x :: Named(LoadTable(tb), x) <==> NfaNamed(tb, x)
    ensures forall f, a, t :: HasEdge(LoadTable(tb), f, a, t) <==> Lists(tb.symbols, tb.rows, f, a, t)
  {
    var es := NfaEntries(tb.symbols, tb.rows);
    LoadShape([], es);
    forall x
      ensures Named(LoadTable(tb), x) <==> NfaNamed(tb, x)
    {
      NfaEntriesNames(tb, x);
    }
    forall f, a, t
      ensures HasEdge(LoadTable(tb), f, a, t) <==> Lists(tb.symbols, tb.rows, f, a, t)
    {
      LoadEdges([], es, f, a, t);
      NfaEntriesLink(tb.symbols, tb.rows, f, a, t);
    }
  }

  /** Some state has an edge under `a` exactly when some named transition
      carries `a`. */
  lemma EdgeLabel(g: seq<NState>, a: Symbol)
    requires ValidGraph(g)
    ensures (exists p :: 0 <= p < |g| && Walk(g[p], a) != {}) <==> exists f, t :: HasEdge(g, f, a, t)
  {
    if p :| 0 <= p < |g| && Walk(g[p], a) != {} {
      var q :| q in Walk(g[p], a);
      assert HasEdge(g, g[p].name, a, g[q].name);
    }
  }

  /** Given the whole arena, the constructor's alphabet is exactly the
      labels of the named transitions. */
  lemma WholeArenaAlphabet(g: seq<NState>, s: StateId, accept: set<StateId>, a: Symbol)
    requires ValidGraph(g)
    ensures a in MakeNfa(g, Ids(|g|), s, accept).alphabet <==> exists f, t :: HasEdge(g, f, a, t)
  {
    EdgeLabel(g, a);
    if p :| 0 <= p < |g| && Walk(g[p], a) != {} {
      assert p in Ids(|g|);
    }
  }

  /** Built over the arena of a table, the constructor's alphabet is every
      symbol under which the table lists a transition. */
  lemma LoadedAlphabet(tb: NfaTable<string, Symbol>, s: StateId, accept: set<StateId>)
    requires NfaShaped(tb)
    ensures forall a :: a in MakeNfa(LoadTable(tb), Ids(|LoadTable(tb)|), s, accept).alphabet <==>
                          exists f, t :: Lists(tb.symbols, tb.rows, f, a, t)
  {
    var g := LoadTable(tb);
    LoadTableShape(tb);
    forall a
      ensures a in MakeNfa(g, Ids(|g|), s, accept).alphabet <==> exists f, t :: Lists(tb.symbols, tb.rows, f, a, t)
    {
      WholeArenaAlphabet(g, s, accept, a);
    }
  }

  /** The accept states: every state whose name is listed as accepting. */
  function AcceptStates(g: seq<NState>, acceptNames: seq<string>): (r: set<StateId>)
    ensures forall q: StateId :: q in r <==> q < |g| && g[q].name in acceptNames
    ensures r == {} <==> forall x | x in acceptNames :: !Named(g, x)
  {
    assert (exists x :: x in acceptNames && Named(g, x)) ==> exists q: StateId :: q < |g| && g[q].name in acceptNames by {
      if x :| x in acceptNames && Named(g, x) {
        var q :| 0 <= q < |g| && g[q].name == x;
      }
    }
    set q: StateId | q < |g| && g[q].name in acceptNames
  }

  /** `NFA.createFrom`. Fails with `NoStartState` exactly when the table
      never uses the start name, and otherwise with `NoAcceptState` exactly
      when it uses none of the accepting names. On success the automaton
      holds one state per name the table uses, starts at the state of the
      start name, accepts at the states of the accepting names, its
      transitions are those the table lists, and its alphabet is every
      symbol under which the table lists a transition. */
  function CreateFrom(tb: NfaTable<string, Symbol>, startName: string, acceptNames: seq<string>): (r: Result<Nfa>)
    requires NfaShaped(tb)
    ensures r == Failure(NoStartState) <==> !NfaNamed(tb, startName)
    ensures r == Failure(NoAcceptState) <==> NfaNamed(tb, startName) && forall x | x in acceptNames :: !NfaNamed(tb, x)
    ensures r.Success? ==>
              && ValidNfa(r.value)
              && UniqueNames(r.value.graph)
              && r.value.states == Ids(|r.value.graph|)
              && r.value.graph[r.value.start].name == startName
              && (forall q: StateId :: q in r.value.accept <==> q < |r.value.graph| && r.value.graph[q].name in acceptNames)
              && (forall x :: Named(r.value.graph, x) <==> NfaNamed(tb, x))
              && (forall f, a, t :: HasEdge(r.value.graph, f, a, t) <==> Lists(tb.symbols, tb.rows, f, a, t))
              && (forall a :: a in r.value.alphabet <==> exists f, t :: Lists(tb.symbols, tb.rows, f, a, t))
  {
    var g := LoadTable(tb);
    LoadTableShape(tb);
    match FindState(g, startName)
    case None => Failure(NoStartState)
    case Some(s) =>
      var accept := AcceptStates(g, acceptNames);
      if accept == {} then Failure(NoAcceptState)
      else
        MakeNfaKeepsWholeArena(g, s, accept);
        LoadedAlphabet(tb, s, accept);
        Success(MakeNfa(g, Ids(|g|), s, accept))
  }
}

=== FILE: nstate.dfy ===
/** A state of a nondeterministic automaton: a display name and, per symbol
    (epsilon included), a set of successor states. An arena of such states is
    a `seq<NState>`; successors are indices into it. */
module NStates {
  import opened Common

  datatype NState = NState(name: string, next: map<Symbol, set<StateId>>)

  /** Every successor of every state of the arena is itself a state of the
      arena (the arena counterpart of "successors are live objects"). */
  ghost predicate ValidGraph(g: seq<NState>)
  {
    forall q, a | 0 <= q < |g| && a in g[q].next :: InArena(g[q].next[a], |g|)
  }

  /** A freshly constructed state has no transitions at all. */
  function NewNState(name: string): (s: NState)
    ensures s.name == name
    ensures forall a :: NextStatesOn(s, a) == None && Walk(s, a) == {}
    ensures NextStates(s) == {}
  {
    NState(name, map[])
  }

  /** The successor set stored for `a`, or `None` (Java's null) when the
      state has no entry for `a`. */
  function NextStatesOn(s: NState, a: Symbol): (r: Option<set<StateId>>)
    ensures r.None? <==> a !in s.next
    ensures r.Some? ==> r.value == s.next[a]
  {
    if a in s.next then Some(s.next[a]) else None
  }

  /** The successors under `a`; a symbol without an entry yields the empty
      set, never a failure. */
  function Walk(s: NState, a: Symbol): (r: set<StateId>)
    ensures NextStatesOn(s, a).Some? ==> r == NextStatesOn(s, a).value
    ensures NextStatesOn(s, a).None? ==> r == {}
  {
    match NextStatesOn(s, a)
    case None => {}
    case Some(ts) => ts
  }

  /** Adds `t` to the successors under `a`, creating the set when absent.
      The flag is true iff `t` was not a successor under `a` before. */
  function PutNextState(s: NState, a: Symbol, t: StateId): (r: (NState, bool))
    ensures r.0.name == s.name
    ensures NextStatesOn(r.0, a) == Some(Walk(s, a) + {t})
    ensures forall b | b != a :: NextStatesOn(r.0, b) == NextStatesOn(s, b)
    ensures r.1 <==> t !in Walk(s, a)
  {
    var ts := if a in s.next then s.next[a] else {};
    (NState(s.name, s.next[a := ts + {t}]), t !in ts)
  }

  /** Every symbol under which `t` is a successor, epsilon included. */
  function FindSymbolToState(s: NState, t: StateId): (r: set<Symbol>)
    ensures forall a :: a in r <==> t in Walk(s, a)
  {
    set a | a in s.next && t in s.next[a]
  }

  /** The union of the successor sets of all symbols, epsilon included. */
  function NextStates(s: NState): (r: set<StateId>)
    ensures forall t :: t in r <==> FindSymbolToState(s, t) != {}
  {
    var r := set a, t | a in s.next && t in s.next[a] :: t;
    assert forall t :: t in r <==> FindSymbolToState(s, t) != {} by {
      forall t
        ensures t in r <==> FindSymbolToState(s, t) != {}
      {
        if FindSymbolToState(s, t) != {} {
          var a :| a in FindSymbolToState(s, t);
          assert t in r;
        }
        if t in r {
          var a :| a in s.next && t in s.next[a];
          assert a in FindSymbolToState(s, t);
        }
      }
    }
    r
  }

  /** Putting the same transition twice: the second put reports that nothing
      was added and leaves the state as it was. */
  lemma PutTwice(s: NState, a: Symbol, t: StateId)
    ensures var (s1, _) := PutNextState(s, a, t);
            PutNextState(s1, a, t) == (s1, false)
  {
    var (s1, _) := PutNextState(s, a, t);
    assert s1.next[a := s1.next[a] + {t}] == s1.next;
  }

  /** After a put, the target is reachable from the state under that symbol,
      and the symbol is among those that lead to it. */
  lemma PutThenFind(s: NState, a: Symbol, t: StateId)
    ensures t in NextStates(PutNextState(s, a, t).0)
    ensures a in FindSymbolToState(PutNextState(s, a, t).0, t)
  {
    var s1 := PutNextState(s, a, t).0;
    assert t in Walk(s1, a);
  }

  /** A put adds its target under its own symbol and changes the
      successors under no other symbol. */
  lemma PutWalk(s: NState, a0: Symbol, t: StateId, a: Symbol)
    ensures Walk(PutNextState(s, a0, t).0, a) == if a == a0 then Walk(s, a) + {t} else Walk(s, a)
  {
  }
}

=== FILE: subset.dfy ===
/** The powerset (Rabin-Scott) construction of `DFA.convertFrom`.

    A worklist of sets of NFA states starts with the set holding the start
    state. Each entry is epsilon-closed and, for every input symbol (epsilon
    is skipped), the closed entry is moved under the symbol and the result is
    closed again. A non-empty result joins the worklist unless a set-equal
    entry is already there. The composites of the DFA are the closed entries;
    a dead state `{}` receives every empty result and loops on itself.

    The order in which the symbols of the alphabet are visited is the
    iteration order of a hash set in the original; here it is fixed by
    `Pick`, and no property below depends on it. */
module SubsetConstruction {
  import opened Common
  import opened EpsilonClosure
  import opened Nfas
  import opened Worklists
  import NStates

  /** The symbols the construction iterates over: the alphabet of the NFA
      without epsilon. */
  function InputSymbols(n: Nfa): (r: set<Symbol>)
    ensures forall a :: a in r <==> a in n.alphabet && a != Epsilon
  {
    set a | a in n.alphabet && a != Epsilon
  }

  /** For an automaton made by the constructor, the input symbols are the
      labels other than epsilon of the edges leaving the given states. */
  lemma InputSymbolsAreEdgeLabels(g: seq<NStates.NState>, given: set<StateId>, start: StateId, accept: set<StateId>, a: Symbol)
    requires InArena(given, |g|)
    ensures a in InputSymbols(MakeNfa(g, given, start, accept)) <==>
              a != Epsilon && exists q :: q in given && NStates.Walk(g[q], a) != {}
  {
  }

  /** The set of states reached from the worklist entry `e` under `a`: close
      the entry, move under `a`, close again. */
  ghost function Target(g: seq<NStates.NState>, e: set<StateId>, a: Symbol): (r: set<StateId>)
    requires NStates.ValidGraph(g)
    requires InArena(e, |g|)
    ensures EpsClosed(g, r)
  {
    Step(g, ClosureOfSet(g, e), a)
  }

  /** The target of every symbol of `sigma` from every set of arena states.
      The worklist loop below only sees this table, not how it is computed. */
  ghost function Table(g: seq<NStates.NState>, sigma: set<Symbol>): (delta: set<StateId> -> map<Symbol, set<StateId>>)
    requires NStates.ValidGraph(g)
    ensures TableOk(|g|, sigma, delta)
    ensures forall e, a {:trigger delta(e)[a]} | InArena(e, |g|) && a in sigma :: delta(e)[a] == Target(g, e, a)
  {
    var delta := e => if InArena(e, |g|) then map a | a in sigma :: Target(g, e, a) else map a | a in sigma :: {};
    assert forall e, a {:trigger delta(e)[a]} | InArena(e, |g|) && a in sigma :: delta(e)[a] == Target(g, e, a);
    delta
  }

  /** An entry found from an earlier one through the table is the target
      of that entry. */
  lemma FoundByTarget(g: seq<NStates.NState>, sigma: set<Symbol>, work: seq<set<StateId>>, j: nat)
    requires NStates.ValidGraph(g)
    requires WorklistOk(|g|, work)
    requires j < |work|
    requires FoundFrom(Table(g, sigma), sigma, work, j)
    ensures exists k, a :: 0 <= k < j && a in sigma && Target(g, work[k], a) == work[j]
  {
    var delta := Table(g, sigma);
    var k, a :| 0 <= k < j && a in sigma && a in delta(work[k]) && delta(work[k])[a] == work[j];
    assert delta(work[k])[a] == Target(g, work[k], a);
  }

  /** The finished worklist of the construction: every entry is a set of
      arena states, every input symbol leads from every entry to the empty
      set or to an entry, and every entry after the first is the target of
      an earlier one, so no set joins that the loop does not meet. */
  ghost function Worklist(n: Nfa): (r: seq<set<StateId>>)
    requires ValidNfa(n)
    ensures WorklistOk(|n.graph|, r)
    ensures r[0] == {n.start}
    ensures forall k, a {:trigger Target(n.graph, r[k], a)} | 0 <= k < |r| && a in InputSymbols(n) ::
              Target(n.graph, r[k], a) == {} || Target(n.graph, r[k], a) in r
    ensures forall j | 1 <= j < |r| :: exists k, a :: 0 <= k < j && a in InputSymbols(n) && Target(n.graph, r[k], a) == r[j]
  {
    var delta := Table(n.graph, InputSymbols(n));
    var r := Discover(|n.graph|, delta, InputSymbols(n), [{n.start}], 0);
    assert r[0] == r[..1][0];
    forall j | 1 <= j < |r|
      ensures exists k, a :: 0 <= k < j && a in InputSymbols(n) && Target(n.graph, r[k], a) == r[j]
    {
      FoundByTarget(n.graph, InputSymbols(n), r, j);
    }
    forall k, a {:trigger Target(n.graph, r[k], a)} | 0 <= k < |r| && a in InputSymbols(n)
      ensures Target(n.graph, r[k], a) == {} || Target(n.graph, r[k], a) in r
    {
      assert delta(r[k])[a] == Target(n.graph, r[k], a);
    }
    r
  }

  /** The closures of the worklist entries, in worklist order. */
  ghost function ClosedEntries(g: seq<NStates.NState>, work: seq<set<StateId>>): (r: seq<set<StateId>>)
    requires NStates.ValidGraph(g)
    requires forall k | 0 <= k < |work| :: InArena(work[k], |g|)
    ensures |r| == |work|
    ensures forall k | 0 <= k < |r| :: r[k] == ClosureOfSet(g, work[k])
    decreases |work|
  {
    if work == [] then [] else [ClosureOfSet(g, work[0])] + ClosedEntries(g, work[1..])
  }

  /** A finished worklist: well formed, and every symbol of `sigma` leads
      from every entry to the empty set or to an entry. */
  ghost predicate Finished(g: seq<NStates.NState>, sigma: set<Symbol>, work: seq<set<StateId>>)
    requires NStates.ValidGraph(g)
  {
    && WorklistOk(|g|, work)
    && forall k, a {:trigger Target(g, work[k], a)} | 0 <= k < |work| && a in sigma ::
         Target(g, work[k], a) == {} || Target(g, work[k], a) in work
  }

  /** `cl` holds the closures of the entries of `work`, in order. */
  ghost predicate ClosesEntries(g: seq<NStates.NState>, work: seq<set<StateId>>, cl: seq<set<StateId>>)
    requires NStates.ValidGraph(g)
    requires WorklistOk(|g|, work)
  {
    |cl| == |work| && forall k | 0 <= k < |cl| :: cl[k] == ClosureOfSet(g, work[k])
  }

  /** The closed entries are exactly the closures of the entries. */
  lemma ClosedEntriesAre(g: seq<NStates.NState>, work: seq<set<StateId>>, cl: seq<set<StateId>>, x: set<StateId>)
    requires NStates.ValidGraph(g)
    requires WorklistOk(|g|, work)
    requires ClosesEntries(g, work, cl)
    ensures x in Elems(cl) <==> exists k :: 0 <= k < |work| && x == ClosureOfSet(g, work[k])
  {
    if k :| 0 <= k < |work| && x == ClosureOfSet(g, work[k]) {
      assert cl[k] == x;
    }
  }

  /** The closed entries of a well-formed worklist are non-empty,
      epsilon-closed sets of arena states. */
  lemma {:induction false} ClosedEntriesShape(g: seq<NStates.NState>, work: seq<set<StateId>>, cl: seq<set<StateId>>, x: set<StateId>)
    requires NStates.ValidGraph(g)
    requires WorklistOk(|g|, work)
    requires ClosesEntries(g, work, cl)
    requires x in cl
    ensures x != {} && InArena(x, |g|) && EpsClosed(g, x)
  {
    var j :| 0 <= j < |cl| && cl[j] == x;
    assert work[j] <= x;
  }

  /** Every symbol of `sigma` leads from every closed entry of a finished
      worklist to the empty set or to a closed entry. */
  lemma {:induction false} ClosedEntriesStepClosed(g: seq<NStates.NState>, sigma: set<Symbol>, work: seq<set<StateId>>,
                                cl: seq<set<StateId>>, x: set<StateId>, a: Symbol)
    requires NStates.ValidGraph(g)
    requires Finished(g, sigma, work)
    requires ClosesEntries(g, work, cl)
    requires x in cl
    requires a in sigma
    ensures InArena(x, |g|)
    ensures Step(g, x, a) == {} || Step(g, x, a) in cl
  {
    var k :| 0 <= k < |cl| && cl[k] == x;
    var t := Target(g, work[k], a);
    assert Step(g, x, a) == t;
    if t != {} {
      var m :| 0 <= m < |work| && work[m] == t;
      ClosedIsOwnClosure(g, t);
      assert cl[m] == t;
    }
  }

  /** The closed entries, each once, are non-empty epsilon-closed sets of
      arena states. */
  lemma DedupShape(g: seq<NStates.NState>, work: seq<set<StateId>>, cl: seq<set<StateId>>)
    requires NStates.ValidGraph(g)
    requires WorklistOk(|g|, work)
    requires ClosesEntries(g, work, cl)
    ensures forall k | 0 <= k < |Dedup(cl)| :: Dedup(cl)[k] != {} && InArena(Dedup(cl)[k], |g|) && EpsClosed(g, Dedup(cl)[k])
  {
    var r := Dedup(cl);
    forall k | 0 <= k < |r|
      ensures r[k] != {} && InArena(r[k], |g|) && EpsClosed(g, r[k])
    {
      assert r[k] in Elems(cl);
      ClosedEntriesShape(g, work, cl, r[k]);
    }
  }

  /** Every symbol of `sigma` leads from every closed entry, taken once, to
      the empty set or to another one. */
  lemma DedupStepClosed(g: seq<NStates.NState>, sigma: set<Symbol>, work: seq<set<StateId>>, cl: seq<set<StateId>>)
    requires NStates.ValidGraph(g)
    requires Finished(g, sigma, work)
    requires ClosesEntries(g, work, cl)
    ensures forall k, a {:trigger Step(g, Dedup(cl)[k], a)} | 0 <= k < |Dedup(cl)| && a in sigma ::
              InArena(Dedup(cl)[k], |g|) && (Step(g, Dedup(cl)[k], a) == {} || Step(g, Dedup(cl)[k], a) in Dedup(cl))
  {
    forall k, a | 0 <= k < |Dedup(cl)| && a in sigma
      ensures InArena(Dedup(cl)[k], |g|) && (Step(g, Dedup(cl)[k], a) == {} || Step(g, Dedup(cl)[k], a) in Dedup(cl))
    {
      var x := Dedup(cl)[k];
      assert x in Elems(Dedup(cl));
      assert x in cl;
      ClosedEntriesStepClosed(g, sigma, work, cl, x, a);
      if Step(g, x, a) != {} {
        assert Step(g, x, a) in Elems(cl);
        assert Step(g, x, a) in Elems(Dedup(cl));
      }
    }
  }

  /** The composite states of the DFA: the closed worklist entries, each
      once. They are distinct, non-empty and epsilon-closed; the closure of
      the NFA start is one of them; every input symbol leads from each of
      them to the empty set or to one of them; and they are exactly the
      closures of the worklist entries. */
  ghost function Composites(n: Nfa): (r: seq<set<StateId>>)
    requires ValidNfa(n)
    ensures Distinct(r)
    ensures forall k | 0 <= k < |r| :: r[k] != {} && InArena(r[k], |n.graph|) && EpsClosed(n.graph, r[k])
    ensures Closure(n.graph, n.start) in r
    ensures forall k, a {:trigger Step(n.graph, r[k], a)} | 0 <= k < |r| && a in InputSymbols(n) ::
              InArena(r[k], |n.graph|) && (Step(n.graph, r[k], a) == {} || Step(n.graph, r[k], a) in r)
    ensures forall x :: x in r <==> exists k :: 0 <= k < |Worklist(n)| && x == ClosureOfSet(n.graph, Worklist(n)[k])
  {
    var work := Worklist(n);
    var cl := ClosedEntries(n.graph, work);
    forall x
      ensures x in Dedup(cl) <==> exists k :: 0 <= k < |work| && x == ClosureOfSet(n.graph, work[k])
    {
      ClosedEntriesAre(n.graph, work, cl, x);
      assert x in Dedup(cl) <==> x in Elems(Dedup(cl));
    }
    DedupShape(n.graph, work, cl);
    DedupStepClosed(n.graph, InputSymbols(n), work, cl);
    assert cl[0] in Elems(cl);
    Dedup(cl)
  }

  /** Putting the empty set in front of distinct non-empty closed sets that
      are closed under the steps of `sigma` up to the empty set gives
      distinct closed sets that are closed under the steps. */
  lemma WithEmptySet(g: seq<NStates.NState>, sigma: set<Symbol>, comps: seq<set<StateId>>)
    requires NStates.ValidGraph(g)
    requires Distinct(comps)
    requires forall k | 0 <= k < |comps| :: comps[k] != {} && InArena(comps[k], |g|) && EpsClosed(g, comps[k])
    requires forall k, a {:trigger Step(g, comps[k], a)} | 0 <= k < |comps| && a in sigma ::
               InArena(comps[k], |g|) && (Step(g, comps[k], a) == {} || Step(g, comps[k], a) in comps)
    ensures Distinct([{}] + comps)
    ensures forall k | 0 <= k < |[{}] + comps| :: InArena(([{}] + comps)[k], |g|) && EpsClosed(g, ([{}] + comps)[k])
    ensures forall k, a {:trigger Step(g, ([{}] + comps)[k], a)} | 0 <= k < |[{}] + comps| && a in sigma ::
              InArena(([{}] + comps)[k], |g|) && Step(g, ([{}] + comps)[k], a) in [{}] + comps
  {
    var r := [{}] + comps;
    assert forall k | 1 <= k < |r| :: r[k] == comps[k - 1];
    forall k, a {:trigger Step(g, r[k], a)} | 0 <= k < |r| && a in sigma
      ensures InArena(r[k], |g|) && Step(g, r[k], a) in r
    {
      if k == 0 {
        assert Move(g, {}, a) == {};
        ClosedIsOwnClosure(g, {});
      } else {
        assert Step(g, comps[k - 1], a) == {} || Step(g, comps[k - 1], a) in comps;
      }
    }
  }

  /** The member sets of the DFA's states: the empty set of the dead state
      at index 0, then the composites in order. */
  ghost function MemberSets(n: Nfa): (r: seq<set<StateId>>)
    requires ValidNfa(n)
    ensures |r| > 0 && r[0] == {}
    ensures Distinct(r)
    ensures forall k | 0 <= k < |r| :: InArena(r[k], |n.graph|) && EpsClosed(n.graph, r[k])
    ensures Closure(n.graph, n.start) in r
    ensures forall k, a {:trigger Step(n.graph, r[k], a)} | 0 <= k < |r| && a in InputSymbols(n) ::
              InArena(r[k], |n.graph|) && Step(n.graph, r[k], a) in r
    ensures r == [{}] + Composites(n)
  {
    var comps := Composites(n);
    WithEmptySet(n.graph, InputSymbols(n), comps);
    [{}] + comps
  }

  /** Every symbol of `ws` is in `sigma`. */
  ghost predicate Over(ws: seq<Symbol>, sigma: set<Symbol>)
  {
    forall i | 0 <= i < |ws| :: ws[i] in sigma
  }

  /** The active set after the closure-based steps under the symbols of
      `ws`, in order. Unlike `Reach` it takes symbols, so it also follows
      header symbols longer than one character. */
  ghost function StepAll(g: seq<NStates.NState>, s: set<StateId>, ws: seq<Symbol>): (r: set<StateId>)
    requires NStates.ValidGraph(g)
    requires InArena(s, |g|)
    ensures InArena(r, |g|)
    decreases |ws|
  {
    if ws == [] then s else Step(g, StepAll(g, s, ws[..|ws| - 1]), ws[|ws| - 1])
  }

  /** The symbols the characters of `w` are looked up under. */
  function Symbols(w: seq<char>): (r: seq<Symbol>)
    ensures |r| == |w|
    ensures forall i | 0 <= i < |w| :: r[i] == CharSymbol(w[i])
  {
    seq(|w|, i requires 0 <= i < |w| => CharSymbol(w[i]))
  }

  /** Stepping under `a` first, then under `ws`, is stepping under `[a] + ws`. */
  lemma {:induction false} StepAllCons(g: seq<NStates.NState>, s: set<StateId>, a: Symbol, ws: seq<Symbol>)
    requires NStates.ValidGraph(g)
    requires InArena(s, |g|)
    ensures StepAll(g, s, [a] + ws) == StepAll(g, Step(g, s, a), ws)
    decreases |ws|
  {
    if ws == [] {
      assert ([a] + ws)[..0] == [];
    } else {
      var front := ws[..|ws| - 1];
      assert ([a] + ws)[..|ws|] == [a] + front;
      StepAllCons(g, s, a, front);
    }
  }

  /** Reading the characters of `w` is stepping under their symbols. */
  lemma {:induction false} ReachIsStepAll(g: seq<NStates.NState>, s: set<StateId>, w: seq<char>)
    requires NStates.ValidGraph(g)
    requires InArena(s, |g|)
    ensures Reach(g, s, w) == StepAll(g, s, Symbols(w))
    decreases |w|
  {
    if w != [] {
      ReachIsStepAll(g, Step(g, s, CharSymbol(w[0])), w[1..]);
      assert Symbols(w) == [CharSymbol(w[0])] + Symbols(w[1..]);
      StepAllCons(g, s, CharSymbol(w[0]), Symbols(w[1..]));
    }
  }

  /** Stepping once more extends the sequence of symbols by one. */
  lemma StepAllSnoc(g: seq<NStates.NState>, s: set<StateId>, ws: seq<Symbol>, a: Symbol, sigma: set<Symbol>)
    requires NStates.ValidGraph(g)
    requires InArena(s, |g|)
    requires Over(ws, sigma) && a in sigma
    ensures StepAll(g, s, ws + [a]) == Step(g, StepAll(g, s, ws), a)
    ensures Over(ws + [a], sigma)
  {
    assert (ws + [a])[..|ws|] == ws;
    forall i | 0 <= i < |ws + [a]|
      ensures (ws + [a])[i] in sigma
    {
      if i < |ws| {
        assert (ws + [a])[i] == ws[i];
      }
    }
  }

  /** The closure of every worklist entry is reached from the closure of the
      start by a sequence of input symbols. */
  lemma {:induction false} WorklistReached(n: Nfa, j: nat)
    requires ValidNfa(n)
    requires j < |Worklist(n)|
    ensures exists ws :: Over(ws, InputSymbols(n)) &&
              ClosureOfSet(n.graph, Worklist(n)[j]) == StepAll(n.graph, Closure(n.graph, n.start), ws)
    decreases j
  {
    var g, work := n.graph, Worklist(n);
    var c0 := Closure(g, n.start);
    if j == 0 {
      assert Over([], InputSymbols(n));
      assert StepAll(g, c0, []) == c0;
    } else {
      var k, a :| 0 <= k < j && a in InputSymbols(n) && Target(g, work[k], a) == work[j];
      WorklistReached(n, k);
      var ws :| Over(ws, InputSymbols(n)) && ClosureOfSet(g, work[k]) == StepAll(g, c0, ws);
      StepAllSnoc(g, c0, ws, a, InputSymbols(n));
      ClosedIsOwnClosure(g, work[j]);
      assert ClosureOfSet(g, work[j]) == StepAll(g, c0, ws + [a]);
    }
  }

  /** A step under an input symbol from the empty set or a composite lands
      on the empty set or a composite. */
  lemma StepFromComposite(n: Nfa, x: set<StateId>, a: Symbol)
    requires ValidNfa(n)
    requires x == {} || x in Composites(n)
    requires a in InputSymbols(n)
    ensures InArena(x, |n.graph|)
    ensures Step(n.graph, x, a) == {} || Step(n.graph, x, a) in Composites(n)
  {
    var g, comps := n.graph, Composites(n);
    if x == {} {
      assert Move(g, {}, a) == {};
      ClosedIsOwnClosure(g, {});
    } else {
      var k :| 0 <= k < |comps| && comps[k] == x;
      assert Step(g, comps[k], a) == {} || Step(g, comps[k], a) in comps;
    }
  }

  /** Every set reached from the closure of the start by a sequence of input
      symbols is empty or a composite. */
  lemma {:induction false} ReachedIsComposite(n: Nfa, ws: seq<Symbol>)
    requires ValidNfa(n)
    requires Over(ws, InputSymbols(n))
    ensures var x := StepAll(n.graph, Closure(n.graph, n.start), ws);
            x == {} || x in Composites(n)
    decreases |ws|
  {
    if ws != [] {
      var front := ws[..|ws| - 1];
      assert Over(front, InputSymbols(n)) by {
        forall i | 0 <= i < |front|
          ensures front[i] in InputSymbols(n)
        {
          assert front[i] == ws[i];
        }
      }
      ReachedIsComposite(n, front);
      StepFromComposite(n, StepAll(n.graph, Closure(n.graph, n.start), front), ws[|ws| - 1]);
    }
  }

  /** The composites are exactly the non-empty sets reached from the closure
      of the start by a sequence of input symbols: the subsets the loop
      meets, and no other. */
  lemma CompositesAreReached(n: Nfa, x: set<StateId>)
    requires ValidNfa(n)
    ensures x in Composites(n) <==>
              x != {} && exists ws :: Over(ws, InputSymbols(n)) && x == StepAll(n.graph, Closure(n.graph, n.start), ws)
  {
    if x in Composites(n) {
      var k :| 0 <= k < |Worklist(n)| && x == ClosureOfSet(n.graph, Worklist(n)[k]);
      WorklistReached(n, k);
    }
    if ws :| Over(ws, InputSymbols(n)) && x == StepAll(n.graph, Closure(n.graph, n.start), ws) {
      ReachedIsComposite(n, ws);
    }
  }
}

=== FILE: tables.dfy ===
/** The transition tables read by `NFA.createFrom` and `DFA.createFrom`.

    Row 0 of a table is its header: column `c` (from 1) names the symbol of
    that column, a missing name standing for epsilon. Every other row starts
    with the name of a state, followed by one cell per column naming the
    states that state moves to under the column's symbol (a list of names
    for an NFA, exactly one name for a DFA).

    A loader walks the rows in order and, within a row, the columns and
    names in order. That walk is a sequence of entries: a row first looks up
    (or creates) its own state, then records one transition per name in its
    cells. */
module Tables {
  import opened Common

  /** One step of a loader: look up or create the state `name`, or record a
      transition from the state `from` under `sym` to the state `to`. */
  datatype Entry<N, A> = Mention(name: N) | Link(from: N, sym: A, to: N)

  /** The state names an entry refers to. */
  function EntryNames<N, A>(e: Entry<N, A>): set<N>
  {
    match e
    case Mention(n) => {n}
    case Link(f, _, t) => {f, t}
  }

  /** The state names the entries refer to. */
  function Mentioned<N(!new), A>(es: seq<Entry<N, A>>): (r: set<N>)
    ensures forall x :: x in r <==> exists k :: 0 <= k < |es| && x in EntryNames(es[k])
  {
    if es == [] then {}
    else
      var front := es[..|es| - 1];
      var r := Mentioned(front) + EntryNames(es[|es| - 1]);
      assert forall x :: x in r <==> exists k :: 0 <= k < |es| && x in EntryNames(es[k]) by {
        forall x
          ensures x in r <==> exists k :: 0 <= k < |es| && x in EntryNames(es[k])
        {
          if k :| 0 <= k < |es| && x in EntryNames(es[k]) {
            if k < |es| - 1 {
              assert es[k] == front[k];
            }
          }
          if x in Mentioned(front) {
            var k :| 0 <= k < |front| && x in EntryNames(front[k]);
            assert es[k] == front[k];
          }
        }
      }
      r
  }

  /** Every state named as a target of a transition from `f` under `a`. */
  function Targets<N(==,!new), A(==,!new)>(es: seq<Entry<N, A>>, f: N, a: A): (r: set<N>)
    ensures forall t :: t in r <==> Link(f, a, t) in es
  {
    set e | e in es && e.Link? && e.from == f && e.sym == a :: e.to
  }

  /** The target of the last transition from `f` under `a`, if any. */
  function LastTarget<N(==,!new), A(==,!new)>(es: seq<Entry<N, A>>, f: N, a: A): (r: Option<N>)
    ensures r.Some? ==> Link(f, a, r.value) in es
    ensures r.None? <==> Targets(es, f, a) == {}
  {
    if es == [] then None
    else
      var e := es[|es| - 1];
      var front := es[..|es| - 1];
      assert es == front + [e];
      if e.Link? && e.from == f && e.sym == a then Some(e.to)
      else
        assert Targets(es, f, a) == Targets(front, f, a) by {
          forall t
            ensures Link(f, a, t) in es <==> Link(f, a, t) in front
          {
            if Link(f, a, t) in es {
              var k :| 0 <= k < |es| && es[k] == Link(f, a, t);
              assert k < |front|;
              assert front[k] == Link(f, a, t);
            }
          }
        }
        var r := LastTarget(front, f, a);
        assert r.Some? ==> Link(f, a, r.value) in es;
        r
  }

  /** Appending an entry: a transition from `f` under `a` becomes the last
      one; any other entry leaves the last one as it was. */
  lemma LastTargetSnoc<N(!new), A(!new)>(es: seq<Entry<N, A>>, e: Entry<N, A>, f: N, a: A)
    ensures LastTarget(es + [e], f, a) ==
              if e.Link? && e.from == f && e.sym == a then Some(e.to) else LastTarget(es, f, a)
  {
    assert (es + [e])[..|es + [e]| - 1] == es;
  }

  /** The last transition recorded from `f` under `a` decides `LastTarget`,
      whatever came before it. */
  lemma {:induction false} LastTargetIsLast<N(!new), A(!new)>(xs: seq<Entry<N, A>>, f: N, a: A, t: N, ys: seq<Entry<N, A>>)
    requires forall e | e in ys :: !(e.Link? && e.from == f && e.sym == a)
    ensures LastTarget(xs + [Link(f, a, t)] + ys, f, a) == Some(t)
    decreases |ys|
  {
    if ys == [] {
      LastTargetSnoc(xs, Link(f, a, t), f, a);
    } else {
      var front := ys[..|ys| - 1];
      var e := ys[|ys| - 1];
      assert ys == front + [e];
      assert xs + [Link(f, a, t)] + ys == (xs + [Link(f, a, t)] + front) + [e];
      assert e in ys;
      forall x | x in front
        ensures !(x.Link? && x.from == f && x.sym == a)
      {
        assert x in ys;
      }
      LastTargetIsLast(xs, f, a, t, front);
      LastTargetSnoc(xs + [Link(f, a, t)] + front, e, f, a);
    }
  }

  /** A row of an NFA table: a state name and one list of target names per
      column. */
  datatype NfaRow<N> = NfaRow(name: N, cells: seq<seq<N>>)

  /** An NFA table: the symbols of the header's columns and the rows. */
  datatype NfaTable<N, A> = NfaTable(symbols: seq<A>, rows: seq<NfaRow<N>>)

  /** Every cell past the header's last column is empty. The loader reads a
      column's symbol only for a name in its cell, so a name there makes it
      index past the header, while an empty cell there is skipped. */
  predicate NfaShaped<N, A>(tb: NfaTable<N, A>)
  {
    forall r, c | 0 <= r < |tb.rows| && |tb.symbols| <= c < |tb.rows[r].cells| :: tb.rows[r].cells[c] == []
  }

  /** The transitions from `f` under `a` to each of `ts`, in order. */
  function LinksTo<N, A>(f: N, a: A, ts: seq<N>): (r: seq<Entry<N, A>>)
    ensures |r| == |ts|
    ensures forall k | 0 <= k < |r| :: r[k] == Link(f, a, ts[k])
  {
    if ts == [] then [] else LinksTo(f, a, ts[..|ts| - 1]) + [Link(f, a, ts[|ts| - 1])]
  }

  /** The transitions of the columns of a row of `f` that lie under the
      header; a cell past the header's last column records nothing. */
  function CellLinks<N(==,!new), A(==,!new)>(f: N, symbols: seq<A>, cells: seq<seq<N>>): (r: seq<Entry<N, A>>)
    ensures forall e | e in r :: e.Link? && e.from == f
    ensures forall a, t :: Link(f, a, t) in r <==>
              exists c :: 0 <= c < |cells| && c < |symbols| && symbols[c] == a && t in cells[c]
  {
    if cells == [] then []
    else
      var c := |cells| - 1;
      var front := CellLinks(f, symbols, cells[..c]);
      var last := if c < |symbols| then LinksTo(f, symbols[c], cells[c]) else [];
      assert forall a, t :: Link(f, a, t) in front + last <==>
               exists c' :: 0 <= c' < |cells| && c' < |symbols| && symbols[c'] == a && t in cells[c'] by {
        forall a, t
          ensures Link(f, a, t) in front + last <==>
                  exists c' :: 0 <= c' < |cells| && c' < |symbols| && symbols[c'] == a && t in cells[c']
        {
          if Link(f, a, t) in last {
            var k :| 0 <= k < |last| && last[k] == Link(f, a, t);
            assert cells[c][k] == t;
          }
          if c' :| 0 <= c' < |cells| && c' < |symbols| && symbols[c'] == a && t in cells[c'] {
            if c' < c {
              assert cells[..c][c'] == cells[c'];
            } else {
              var k :| 0 <= k < |cells[c]| && cells[c][k] == t;
              assert last[k] == Link(f, a, t);
            }
          }
          if Link(f, a, t) in front {
            var c' :| 0 <= c' < c && c' < |symbols| && symbols[c'] == a && t in cells[..c][c'];
            assert cells[..c][c'] == cells[c'];
          }
        }
      }
      front + last
  }

  /** The entries of an NFA table's rows, in the loader's order. */
  function NfaEntries<N(==,!new), A(==,!new)>(symbols: seq<A>, rows: seq<NfaRow<N>>): seq<Entry<N, A>>
  {
    if rows == [] then []
    else
      var row := rows[|rows| - 1];
      NfaEntries(symbols, rows[..|rows| - 1]) + [Mention(row.name)] + CellLinks(row.name, symbols, row.cells)
  }

  /** Some row is the row of state `x`. */
  ghost predicate HasRow<N(!new)>(rows: seq<NfaRow<N>>, x: N)
  {
    exists k :: 0 <= k < |rows| && rows[k].name == x
  }

  /** Some row of `f` lists `t` in a column of symbol `a`. */
  ghost predicate Lists<N(!new), A(!new)>(symbols: seq<A>, rows: seq<NfaRow<N>>, f: N, a: A, t: N)
  {
    exists k, c :: 0 <= k < |rows| && rows[k].name == f && 0 <= c < |rows[k].cells| && c < |symbols| &&
                   symbols[c] == a && t in rows[k].cells[c]
  }

  /** A row of `x` is among the front rows or is the last one. */
  lemma HasRowSnoc<N(!new)>(rows: seq<NfaRow<N>>, x: N)
    requires rows != []
    ensures HasRow(rows, x) <==> HasRow(rows[..|rows| - 1], x) || rows[|rows| - 1].name == x
  {
    var front := rows[..|rows| - 1];
    if HasRow(rows, x) {
      var j :| 0 <= j < |rows| && rows[j].name == x;
      if j < |front| {
        assert front[j] == rows[j];
      }
    }
    if HasRow(front, x) {
      var j :| 0 <= j < |front| && front[j].name == x;
      assert rows[j] == front[j];
    }
  }

  /** A row listing `t` from `f` under `a` is among the front rows or is
      the last one. */
  lemma ListsSnoc<N(!new), A(!new)>(symbols: seq<A>, rows: seq<NfaRow<N>>, f: N, a: A, t: N)
    requires rows != []
    ensures var row := rows[|rows| - 1];
            Lists(symbols, rows, f, a, t) <==>
              || Lists(symbols, rows[..|rows| - 1], f, a, t)
              || (row.name == f && exists c :: 0 <= c < |row.cells| && c < |symbols| && symbols[c] == a && t in row.cells[c])
  {
    var front := rows[..|rows| - 1];
    if Lists(symbols, rows, f, a, t) {
      var j, c :| 0 <= j < |rows| && rows[j].name == f && 0 <= c < |rows[j].cells| && c < |symbols| &&
                  symbols[c] == a && t in rows[j].cells[c];
      if j < |front| {
        assert front[j] == rows[j];
      }
    }
    if Lists(symbols, front, f, a, t) {
      var j, c :| 0 <= j < |front| && front[j].name == f && 0 <= c < |front[j].cells| && c < |symbols| &&
                  symbols[c] == a && t in front[j].cells[c];
      assert rows[j] == front[j];
    }
  }

  /** The table's entries look up the state of every row, and no other. */
  lemma {:induction false} NfaEntriesMention<N(!new), A(!new)>(symbols: seq<A>, rows: seq<NfaRow<N>>, x: N)
    ensures Mention(x) in NfaEntries(symbols, rows) <==> HasRow(rows, x)
    decreases |rows|
  {
    if rows != [] {
      var row := rows[|rows| - 1];
      var front := rows[..|rows| - 1];
      NfaEntriesMention(symbols, front, x);
      HasRowSnoc(rows, x);
      assert Mention(x) !in CellLinks(row.name, symbols, row.cells);
    }
  }

  /** The table's entries record exactly the transitions its rows list. */
  lemma {:induction false} NfaEntriesLink<N(!new), A(!new)>(symbols: seq<A>, rows: seq<NfaRow<N>>, f: N, a: A, t: N)
    ensures Link(f, a, t) in NfaEntries(symbols, rows) <==> Lists(symbols, rows, f, a, t)
    decreases |rows|
  {
    if rows != [] {
      var row := rows[|rows| - 1];
      var front := rows[..|rows| - 1];
      NfaEntriesLink(symbols, front, f, a, t);
      ListsSnoc(symbols, rows, f, a, t);
      var links := CellLinks(row.name, symbols, row.cells);
      assert Link(f, a, t) in links ==> row.name == f;
    }
  }

  /** The table uses the name `x`: as the name of a row or as a target in a
      cell. */
  ghost predicate NfaNamed<N(!new), A(!new)>(tb: NfaTable<N, A>, x: N)
  {
    HasRow(tb.rows, x) || exists f, a :: Lists(tb.symbols, tb.rows, f, a, x)
  }

  /** A name is mentioned by the entries exactly when an entry looks it up
      or a transition starts or ends at it. */
  lemma MentionedIn<N(!new), A(!new)>(es: seq<Entry<N, A>>, x: N)
    ensures x in Mentioned(es) <==>
              || Mention(x) in es
              || (exists f, a :: Link(f, a, x) in es)
              || (exists a, t :: Link(x, a, t) in es)
  {
    if x in Mentioned(es) {
      var k :| 0 <= k < |es| && x in EntryNames(es[k]);
      assert es[k] in es;
    }
    if Mention(x) in es {
      var k :| 0 <= k < |es| && es[k] == Mention(x);
      assert x in EntryNames(es[k]);
    }
    if f, a :| Link(f, a, x) in es {
      var k :| 0 <= k < |es| && es[k] == Link(f, a, x);
      assert x in EntryNames(es[k]);
    }
    if a, t :| Link(x, a, t) in es {
      var k :| 0 <= k < |es| && es[k] == Link(x, a, t);
      assert x in EntryNames(es[k]);
    }
  }

  /** The entries of a table mention exactly the names the table uses. */
  lemma NfaEntriesNames<N(!new), A(!new)>(tb: NfaTable<N, A>, x: N)
    ensures x in Mentioned(NfaEntries(tb.symbols, tb.rows)) <==> NfaNamed(tb, x)
  {
    var es := NfaEntries(tb.symbols, tb.rows);
    MentionedIn(es, x);
    NfaEntriesMention(tb.symbols, tb.rows, x);
    forall f, a
      ensures Link(f, a, x) in es <==> Lists(tb.symbols, tb.rows, f, a, x)
    {
      NfaEntriesLink(tb.symbols, tb.rows, f, a, x);
    }
    forall a, t | Link(x, a, t) in es
      ensures HasRow(tb.rows, x)
    {
      NfaEntriesLink(tb.symbols, tb.rows, x, a, t);
    }
  }

  /** Appending entries: the last transition from `f` under `a` is in the
      appended part when it has one, and before it otherwise. */
  lemma {:induction false} LastTargetAppend<N(!new), A(!new)>(xs: seq<Entry<N, A>>, ys: seq<Entry<N, A>>, f: N, a: A)
    ensures LastTarget(xs + ys, f, a) == if LastTarget(ys, f, a).Some? then LastTarget(ys, f, a) else LastTarget(xs, f, a)
    decreases |ys|
  {
    if ys == [] {
      assert xs + ys == xs;
    } else {
      var front := ys[..|ys| - 1];
      var e := ys[|ys| - 1];
      assert ys == front + [e];
      assert xs + ys == (xs + front) + [e];
      LastTargetAppend(xs, front, f, a);
      LastTargetSnoc(xs + front, e, f, a);
      LastTargetSnoc(front, e, f, a);
    }
  }

  /** A row of a DFA table: a state name and one target name per column. */
  datatype DfaRow<N> = DfaRow(name: N, cells: seq<N>)

  /** A DFA table: the symbols of the header's columns and the rows. */
  datatype DfaTable<N, A> = DfaTable(symbols: seq<A>, rows: seq<DfaRow<N>>)

  /** No row has more cells than the header has symbols. */
  predicate DfaShaped<N, A>(tb: DfaTable<N, A>)
  {
    forall r | 0 <= r < |tb.rows| :: |tb.rows[r].cells| <= |tb.symbols|
  }

  /** The transitions of a row of `f`, one per cell, in column order. */
  function RowLinks<N, A>(f: N, symbols: seq<A>, cells: seq<N>): (r: seq<Entry<N, A>>)
    requires |cells| <= |symbols|
    ensures |r| == |cells|
    ensures forall c | 0 <= c < |cells| :: r[c] == Link(f, symbols[c], cells[c])
  {
    if cells == [] then []
    else RowLinks(f, symbols, cells[..|cells| - 1]) + [Link(f, symbols[|cells| - 1], cells[|cells| - 1])]
  }

  /** The entries of a DFA table's rows, in the loader's order. */
  function DfaEntries<N, A>(symbols: seq<A>, rows: seq<DfaRow<N>>): seq<Entry<N, A>>
    requires forall k | 0 <= k < |rows| :: |rows[k].cells| <= |symbols|
  {
    if rows == [] then []
    else
      var row := rows[|rows| - 1];
      DfaEntries(symbols, rows[..|rows| - 1]) + [Mention(row.name)] + RowLinks(row.name, symbols, row.cells)
  }

  /** Column `c` of a row with cells `cells` holds a target under `a`. */
  ghost predicate ColumnOf<N, A>(symbols: seq<A>, cells: seq<N>, c: int, a: A)
  {
    0 <= c < |cells| && c < |symbols| && symbols[c] == a
  }

  /** Row `k` is a row of `f` whose column `c` holds a target under `a`. */
  ghost predicate CellOf<N, A>(symbols: seq<A>, rows: seq<DfaRow<N>>, k: int, c: int, f: N, a: A)
  {
    0 <= k < |rows| && rows[k].name == f && ColumnOf(symbols, rows[k].cells, c, a)
  }

  /** Among the cells of rows of `f` under `a`, the one in row `k` and
      column `c` comes last in row-major order. */
  ghost predicate LastCell<N, A>(symbols: seq<A>, rows: seq<DfaRow<N>>, k: int, c: int, f: N, a: A)
  {
    && CellOf(symbols, rows, k, c, f, a)
    && forall k', c' | CellOf(symbols, rows, k', c', f, a) :: k' < k || (k' == k && c' <= c)
  }

  /** The table makes `t` the target of `f` under `a`: `t` is in the last
      cell of the rows of `f` under `a`. */
  ghost predicate DfaLists<N(!new), A(!new)>(tb: DfaTable<N, A>, f: N, a: A, t: N)
  {
    exists k, c :: LastCell(tb.symbols, tb.rows, k, c, f, a) && tb.rows[k].cells[c] == t
  }

  /** The table uses the name `x`: as the name of a row or in a cell. */
  ghost predicate DfaNamed<N(!new), A>(tb: DfaTable<N, A>, x: N)
  {
    || (exists k :: 0 <= k < |tb.rows| && tb.rows[k].name == x)
    || (exists k, c :: 0 <= k < |tb.rows| && 0 <= c < |tb.rows[k].cells| && tb.rows[k].cells[c] == x)
  }

  /** The last transition of a row's links from `f` under `a` is in the last
      column of `a`, and there is none when the row is not `f`'s or has no
      column of `a`. */
  lemma {:induction false} RowLast<N(!new), A(!new)>(f0: N, symbols: seq<A>, cells: seq<N>, f: N, a: A)
    requires |cells| <= |symbols|
    ensures var lt := LastTarget(RowLinks(f0, symbols, cells), f, a);
            && (lt.None? <==> f0 != f || forall c :: !ColumnOf(symbols, cells, c, a))
            && (lt.Some? ==> f0 == f && exists c :: && ColumnOf(symbols, cells, c, a) && cells[c] == lt.value
                                                    && forall c' | ColumnOf(symbols, cells, c', a) :: c' <= c)
    decreases |cells|
  {
    if cells != [] {
      var n := |cells| - 1;
      var front := cells[..n];
      RowLast(f0, symbols, front, f, a);
      LastTargetSnoc(RowLinks(f0, symbols, front), Link(f0, symbols[n], cells[n]), f, a);
      forall c | ColumnOf(symbols, front, c, a)
        ensures ColumnOf(symbols, cells, c, a) && front[c] == cells[c]
      {
      }
      forall c | ColumnOf(symbols, cells, c, a) && c < n
        ensures ColumnOf(symbols, front, c, a)
      {
      }
      if symbols[n] != a && (forall c :: !ColumnOf(symbols, front, c, a)) {
        assert forall c :: !ColumnOf(symbols, cells, c, a);
      }
      if symbols[n] == a {
        assert ColumnOf(symbols, cells, n, a);
      }
    }
  }

  /** The cells of the rows of `f` under `a` are those of the front rows and
      those of the last row. */
  lemma CellOfSnoc<N, A>(symbols: seq<A>, rows: seq<DfaRow<N>>, f: N, a: A)
    requires rows != []
    ensures var n := |rows| - 1;
            forall k, c :: CellOf(symbols, rows, k, c, f, a) <==>
              || CellOf(symbols, rows[..n], k, c, f, a)
              || (k == n && rows[n].name == f && ColumnOf(symbols, rows[n].cells, c, a))
  {
    var n := |rows| - 1;
    forall k | 0 <= k < n
      ensures rows[..n][k] == rows[k]
    {
    }
  }

  /** The last column of `a` in the last row of `f` holds the last cell. */
  lemma LastCellInLastRow<N, A>(symbols: seq<A>, rows: seq<DfaRow<N>>, row: DfaRow<N>, f: N, a: A, c: int)
    requires rows != [] && row == rows[|rows| - 1] && row.name == f
    requires ColumnOf(symbols, row.cells, c, a)
    requires forall c' | ColumnOf(symbols, row.cells, c', a) :: c' <= c
    ensures LastCell(symbols, rows, |rows| - 1, c, f, a)
  {
  }

  /** No row has a cell of `f` under `a` exactly when no front row has one
      and the last row has none. */
  lemma NoCellSnoc<N, A>(symbols: seq<A>, rows: seq<DfaRow<N>>, front: seq<DfaRow<N>>, row: DfaRow<N>, f: N, a: A)
    requires rows == front + [row]
    ensures (forall k, c :: !CellOf(symbols, rows, k, c, f, a)) <==>
              && (forall k, c :: !CellOf(symbols, front, k, c, f, a))
              && (row.name != f || forall c :: !ColumnOf(symbols, row.cells, c, a))
  {
    assert front == rows[..|rows| - 1];
    CellOfSnoc(symbols, rows, f, a);
    if c :| row.name == f && ColumnOf(symbols, row.cells, c, a) {
      assert CellOf(symbols, rows, |front|, c, f, a);
    }
  }

  /** When the last row has no column of `a` for `f`, the last cell of the
      front rows stays the last cell. */
  lemma LastCellInFront<N, A>(symbols: seq<A>, rows: seq<DfaRow<N>>, row: DfaRow<N>, f: N, a: A, k: int, c: int)
    requires rows != [] && row == rows[|rows| - 1]
    requires row.name != f || forall c' :: !ColumnOf(symbols, row.cells, c', a)
    requires LastCell(symbols, rows[..|rows| - 1], k, c, f, a)
    ensures LastCell(symbols, rows, k, c, f, a)
    ensures rows[k] == rows[..|rows| - 1][k]
  {
    CellOfSnoc(symbols, rows, f, a);
  }

  /** The last transition recorded by a table with one more row is that of
      the new row when it records one, and that of the front rows otherwise. */
  lemma DfaEntriesSnocLast<N(!new), A(!new)>(symbols: seq<A>, rows: seq<DfaRow<N>>, f: N, a: A)
    requires rows != []
    requires forall k | 0 <= k < |rows| :: |rows[k].cells| <= |symbols|
    ensures var n := |rows| - 1;
            var lr := LastTarget(RowLinks(rows[n].name, symbols, rows[n].cells), f, a);
            LastTarget(DfaEntries(symbols, rows), f, a) ==
              if lr.Some? then lr else LastTarget(DfaEntries(symbols, rows[..n]), f, a)
  {
    var n := |rows| - 1;
    var ef := DfaEntries(symbols, rows[..n]);
    var rl := RowLinks(rows[n].name, symbols, rows[n].cells);
    assert DfaEntries(symbols, rows) == (ef + [Mention(rows[n].name)]) + rl;
    LastTargetAppend(ef + [Mention(rows[n].name)], rl, f, a);
    LastTargetSnoc(ef, Mention(rows[n].name), f, a);
  }

  /** The entries of a DFA table record a transition from `f` under `a`
      exactly when some row of `f` has a column of `a`, and the last one they
      record is the target in the last such cell. */
  lemma {:induction false} DfaEntriesLast<N(!new), A(!new)>(symbols: seq<A>, rows: seq<DfaRow<N>>, f: N, a: A)
    requires forall k | 0 <= k < |rows| :: |rows[k].cells| <= |symbols|
    ensures var lt := LastTarget(DfaEntries(symbols, rows), f, a);
            && (lt.None? <==> forall k, c :: !CellOf(symbols, rows, k, c, f, a))
            && (lt.Some? ==> exists k, c :: LastCell(symbols, rows, k, c, f, a) && rows[k].cells[c] == lt.value)
    decreases |rows|
  {
    if rows != [] {
      var n := |rows| - 1;
      var row := rows[n];
      var front := rows[..n];
      DfaEntriesLast(symbols, front, f, a);
      DfaEntriesSnocLast(symbols, rows, f, a);
      RowLast(row.name, symbols, row.cells, f, a);
      var lt := LastTarget(DfaEntries(symbols, rows), f, a);
      var lr := LastTarget(RowLinks(row.name, symbols, row.cells), f, a);
      assert rows == front + [row];
      NoCellSnoc(symbols, rows, front, row, f, a);
      if lr.Some? {
        var c :| && ColumnOf(symbols, row.cells, c, a) && row.cells[c] == lr.value
                 && forall c' | ColumnOf(symbols, row.cells, c', a) :: c' <= c;
        LastCellInLastRow(symbols, rows, row, f, a, c);
      } else if lt.Some? {
        var k, c :| LastCell(symbols, front, k, c, f, a) && front[k].cells[c] == lt.value;
        LastCellInFront(symbols, rows, row, f, a, k, c);
      }
    }
  }

  /** The last cell of the rows of `f` under `a` is unique. */
  lemma LastCellUnique<N, A>(symbols: seq<A>, rows: seq<DfaRow<N>>, f: N, a: A, k: int, c: int, k2: int, c2: int)
    requires LastCell(symbols, rows, k, c, f, a)
    requires LastCell(symbols, rows, k2, c2, f, a)
    ensures k == k2 && c == c2
  {
  }

  /** The last transition the entries of a DFA table record from `f` under
      `a` leads to `t` exactly when the table makes `t` the target of `f`
      under `a`. */
  lemma DfaEntriesTarget<N(!new), A(!new)>(tb: DfaTable<N, A>, f: N, a: A, t: N)
    requires DfaShaped(tb)
    ensures LastTarget(DfaEntries(tb.symbols, tb.rows), f, a) == Some(t) <==> DfaLists(tb, f, a, t)
  {
    var lt := LastTarget(DfaEntries(tb.symbols, tb.rows), f, a);
    DfaEntriesLast(tb.symbols, tb.rows, f, a);
    if DfaLists(tb, f, a, t) {
      var k, c :| LastCell(tb.symbols, tb.rows, k, c, f, a) && tb.rows[k].cells[c] == t;
      assert lt.Some?;
      var k2, c2 :| LastCell(tb.symbols, tb.rows, k2, c2, f, a) && tb.rows[k2].cells[c2] == lt.value;
      LastCellUnique(tb.symbols, tb.rows, f, a, k, c, k2, c2);
    }
  }

  /** Some row of `rows` is called `x`. */
  ghost predicate HasDfaRow<N>(rows: seq<DfaRow<N>>, x: N)
  {
    exists k :: 0 <= k < |rows| && rows[k].name == x
  }

  /** A row called `x` is among the front rows or is the last one. */
  lemma HasDfaRowSnoc<N>(rows: seq<DfaRow<N>>, front: seq<DfaRow<N>>, row: DfaRow<N>, x: N)
    requires rows == front + [row]
    ensures HasDfaRow(rows, x) <==> HasDfaRow(front, x) || row.name == x
  {
    if k :| 0 <= k < |rows| && rows[k].name == x && k < |front| {
      assert front[k] == rows[k];
    }
    if k :| 0 <= k < |front| && front[k].name == x {
      assert rows[k] == front[k];
    }
    assert rows[|front|] == row;
  }

  /** A row's links hold no mention. */
  lemma RowLinksNoMention<N, A>(f0: N, symbols: seq<A>, cells: seq<N>, x: N)
    requires |cells| <= |symbols|
    ensures Mention(x) !in RowLinks(f0, symbols, cells)
  {
    var rl := RowLinks(f0, symbols, cells);
    forall c | 0 <= c < |rl|
      ensures rl[c] != Mention(x)
    {
      assert rl[c].Link?;
    }
  }

  /** The entries of a DFA table look up the state of every row, and no
      other. */
  lemma {:induction false} DfaEntriesMention<N(!new), A(!new)>(symbols: seq<A>, rows: seq<DfaRow<N>>, x: N)
    requires forall k | 0 <= k < |rows| :: |rows[k].cells| <= |symbols|
    ensures Mention(x) in DfaEntries(symbols, rows) <==> exists k :: 0 <= k < |rows| && rows[k].name == x
    decreases |rows|
  {
    if rows != [] {
      var n := |rows| - 1;
      var row := rows[n];
      var front := rows[..n];
      assert rows == front + [row];
      DfaEntriesMention(symbols, front, x);
      var rl := RowLinks(row.name, symbols, row.cells);
      RowLinksNoMention(row.name, symbols, row.cells, x);
      var before := DfaEntries(symbols, front);
      assert Mention(x) in DfaEntries(symbols, rows) <==> Mention(x) in before || row.name == x by {
        assert DfaEntries(symbols, rows) == before + [Mention(row.name)] + rl;
      }
      HasDfaRowSnoc(rows, front, row, x);
    }
  }

  /** A row's links record the target of each of its cells. */
  lemma RowLinksHas<N, A>(f0: N, symbols: seq<A>, cells: seq<N>, f: N, a: A, t: N)
    requires |cells| <= |symbols|
    ensures Link(f, a, t) in RowLinks(f0, symbols, cells) <==>
              f == f0 && exists c :: ColumnOf(symbols, cells, c, a) && cells[c] == t
  {
    var rl := RowLinks(f0, symbols, cells);
    if Link(f, a, t) in rl {
      var c :| 0 <= c < |rl| && rl[c] == Link(f, a, t);
      assert ColumnOf(symbols, cells, c, a);
    }
    if c :| ColumnOf(symbols, cells, c, a) && cells[c] == t {
      assert rl[c] == Link(f0, a, t);
    }
  }

  /** A cell of a row of `f` under `a` holding `t` is in the front rows or
      in the last row. */
  lemma HasCellSnoc<N, A>(symbols: seq<A>, rows: seq<DfaRow<N>>, f: N, a: A, t: N)
    requires rows != []
    ensures var n := |rows| - 1;
            (exists k, c :: CellOf(symbols, rows, k, c, f, a) && rows[k].cells[c] == t) <==>
              || (exists k, c :: CellOf(symbols, rows[..n], k, c, f, a) && rows[..n][k].cells[c] == t)
              || (rows[n].name == f && exists c :: ColumnOf(symbols, rows[n].cells, c, a) && rows[n].cells[c] == t)
  {
    var n := |rows| - 1;
    var front := rows[..n];
    if k, c :| CellOf(symbols, front, k, c, f, a) && front[k].cells[c] == t {
      assert rows[k] == front[k];
      assert CellOf(symbols, rows, k, c, f, a);
    }
    if k, c :| CellOf(symbols, rows, k, c, f, a) && rows[k].cells[c] == t {
      if k < n {
        assert rows[k] == front[k];
        assert CellOf(symbols, front, k, c, f, a);
      }
    }
    if c :| rows[n].name == f && ColumnOf(symbols, rows[n].cells, c, a) && rows[n].cells[c] == t {
      assert CellOf(symbols, rows, n, c, f, a);
    }
  }

  /** The entries of a DFA table record the target of every cell, and no
      other transition. */
  lemma {:induction false} DfaEntriesLink<N(!new), A(!new)>(symbols: seq<A>, rows: seq<DfaRow<N>>, f: N, a: A, t: N)
    requires forall k | 0 <= k < |rows| :: |rows[k].cells| <= |symbols|
    ensures Link(f, a, t) in DfaEntries(symbols, rows) <==> exists k, c :: CellOf(symbols, rows, k, c, f, a) && rows[k].cells[c] == t
    decreases |rows|
  {
    if rows != [] {
      var n := |rows| - 1;
      var row := rows[n];
      var front := rows[..n];
      DfaEntriesLink(symbols, front, f, a, t);
      HasCellSnoc(symbols, rows, f, a, t);
      RowLinksHas(row.name, symbols, row.cells, f, a, t);
      var ef := DfaEntries(symbols, front);
      var rl := RowLinks(row.name, symbols, row.cells);
      assert Link(f, a, t) in DfaEntries(symbols, rows) <==> Link(f, a, t) in ef || Link(f, a, t) in rl by {
        assert DfaEntries(symbols, rows) == ef + [Mention(row.name)] + rl;
      }
    }
  }

  /** The entries of a DFA table mention exactly the names the table uses. */
  lemma DfaEntriesNames<N(!new), A(!new)>(tb: DfaTable<N, A>, x: N)
    requires DfaShaped(tb)
    ensures x in Mentioned(DfaEntries(tb.symbols, tb.rows)) <==> DfaNamed(tb, x)
  {
    var es := DfaEntries(tb.symbols, tb.rows);
    MentionedIn(es, x);
    DfaEntriesMention(tb.symbols, tb.rows, x);
    forall f, a | Link(f, a, x) in es
      ensures exists k, c :: 0 <= k < |tb.rows| && 0 <= c < |tb.rows[k].cells| && tb.rows[k].cells[c] == x
    {
      DfaEntriesLink(tb.symbols, tb.rows, f, a, x);
    }
    forall a, t | Link(x, a, t) in es
      ensures exists k :: 0 <= k < |tb.rows| && tb.rows[k].name == x
    {
      DfaEntriesLink(tb.symbols, tb.rows, x, a, t);
    }
    if k, c :| 0 <= k < |tb.rows| && 0 <= c < |tb.rows[k].cells| && tb.rows[k].cells[c] == x {
      var f, a := tb.rows[k].name, tb.symbols[c];
      assert CellOf(tb.symbols, tb.rows, k, c, f, a);
      DfaEntriesLink(tb.symbols, tb.rows, f, a, x);
    }
  }
}

=== FILE: worklist.dfy ===
/** The worklist loop of the powerset construction, independent of what
    the sets it collects stand for. The loop only sees a table `delta`
    giving, for every set and every symbol, the target set.

    A worklist starts with one set. Its entries are processed in order; for
    every symbol the target of the entry joins the worklist unless it is
    empty or set-equal to an entry already there. Since every set that
    joins is a subset of a finite universe and no set joins twice, the loop
    terminates. */
module Worklists {
  import opened Common

  /** `DFA.contains`: some entry holds the same states as `t` (mutual
      containment). */
  function Contains(work: seq<set<StateId>>, t: set<StateId>): (r: bool)
    ensures r <==> t in work
  {
    if work == [] then false
    else
      assert t in work <==> t == work[0] || t in work[1..] by {
        assert work == [work[0]] + work[1..];
      }
      (work[0] <= t && t <= work[0]) || Contains(work[1..], t)
  }

  /** The worklist is never empty, holds no set twice, and holds non-empty
      sets of states of an arena of size `size`. */
  ghost predicate WorklistOk(size: nat, work: seq<set<StateId>>)
  {
    && |work| > 0
    && Distinct(work)
    && (forall k | 0 <= k < |work| :: work[k] != {} && InArena(work[k], size))
  }

  /** `delta` gives a target for every symbol of `sigma`, and targets of
      sets of arena states are sets of arena states. */
  ghost predicate TableOk(size: nat, sigma: set<Symbol>, delta: set<StateId> -> map<Symbol, set<StateId>>)
  {
    && (forall e :: delta(e).Keys == sigma)
    && (forall e, a {:trigger delta(e)[a]} | InArena(e, size) && a in sigma :: InArena(delta(e)[a], size))
  }

  /** All sets of states of an arena of size `n`. */
  ghost function Subsets(n: nat): set<set<StateId>>
  {
    if n == 0 then {{}}
    else
      var smaller := Subsets(n - 1);
      smaller + set x | x in smaller :: x + {n - 1}
  }

  lemma {:induction false} InSubsets(n: nat, x: set<StateId>)
    requires InArena(x, n)
    ensures x in Subsets(n)
  {
    if n == 0 {
      assert x == {} by {
        if q :| q in x {
          assert false;
        }
      }
    } else {
      if n - 1 in x {
        var y := x - {n - 1};
        var smaller := Subsets(n - 1);
        InSubsets(n - 1, y);
        assert x == y + {n - 1};
        assert Subsets(n) == smaller + set z | z in smaller :: z + {n - 1};
      } else {
        InSubsets(n - 1, x);
      }
    }
  }

  /** Every entry of a well-formed worklist is a set of arena states. */
  lemma WorklistInSubsets(size: nat, work: seq<set<StateId>>)
    requires WorklistOk(size, work)
    ensures Elems(work) <= Subsets(size)
  {
    forall x | x in Elems(work)
      ensures x in Subsets(size)
    {
      InSubsets(size, x);
    }
  }

  /** Appends `t` unless it is empty or already an entry. */
  function Enlist(work: seq<set<StateId>>, t: set<StateId>): (r: seq<set<StateId>>)
    ensures |work| <= |r| && r[..|work|] == work
    ensures Elems(r) == Elems(work) + (if t == {} then {} else {t})
    ensures Distinct(work) ==> Distinct(r)
    ensures |r| == |work| || Elems(work) < Elems(r)
  {
    if t != {} && !Contains(work, t) then work + [t] else work
  }

  /** The inner loop over the symbols of `syms` for one entry, given the
      target of every symbol: appends every non-empty target not yet present,
      and nothing else. */
  ghost function Visit(work: seq<set<StateId>>, targets: map<Symbol, set<StateId>>, syms: set<Symbol>)
    : (r: seq<set<StateId>>)
    requires syms <= targets.Keys
    ensures |work| <= |r| && r[..|work|] == work
    ensures Distinct(work) ==> Distinct(r)
    ensures |r| == |work| || Elems(work) < Elems(r)
    ensures forall a | a in syms :: targets[a] == {} || targets[a] in r
    ensures forall x | x in r :: x in work || (x != {} && exists a :: a in syms && targets[a] == x)
    decreases syms
  {
    if syms == {} then work
    else
      var a := Pick(syms);
      var grown := Enlist(work, targets[a]);
      var r := Visit(grown, targets, syms - {a});
      PrefixTransitive(work, grown, r);
      r
  }

  /** Every symbol of `sigma` leads from each of the first `i` entries to the
      empty set or to an entry. */
  ghost predicate Processed(delta: set<StateId> -> map<Symbol, set<StateId>>, sigma: set<Symbol>, work: seq<set<StateId>>, i: nat)
    requires i <= |work|
  {
    forall k, a {:trigger delta(work[k])[a]} | 0 <= k < i && a in sigma && a in delta(work[k]) ::
      delta(work[k])[a] == {} || delta(work[k])[a] in work
  }

  /** Entry `j` is the target of an earlier entry under a symbol of
      `sigma`: the way every entry after the first joins the worklist. */
  ghost predicate FoundFrom(delta: set<StateId> -> map<Symbol, set<StateId>>, sigma: set<Symbol>, work: seq<set<StateId>>, j: nat)
    requires j < |work|
  {
    exists k, a :: 0 <= k < j && a in sigma && a in delta(work[k]) && delta(work[k])[a] == work[j]
  }

  /** Entries found from earlier ones stay so when the worklist grows. */
  lemma FoundFromPrefix(delta: set<StateId> -> map<Symbol, set<StateId>>, sigma: set<Symbol>,
                        work: seq<set<StateId>>, grown: seq<set<StateId>>, j: nat)
    requires j < |work| <= |grown| && grown[..|work|] == work
    requires FoundFrom(delta, sigma, work, j)
    ensures FoundFrom(delta, sigma, grown, j)
  {
    var k, a :| 0 <= k < j && a in sigma && a in delta(work[k]) && delta(work[k])[a] == work[j];
    assert grown[k] == work[k] && grown[j] == work[j] by {
      assert grown[..|work|][k] == grown[k] && grown[..|work|][j] == grown[j];
    }
  }

  /** Every entry that processing entry `i` appends is a target of entry
      `i`. */
  lemma VisitFinds(delta: set<StateId> -> map<Symbol, set<StateId>>, sigma: set<Symbol>, work: seq<set<StateId>>, i: nat)
    requires i < |work|
    requires delta(work[i]).Keys == sigma
    requires Distinct(work)
    ensures forall j | |work| <= j < |Visit(work, delta(work[i]), sigma)| :: FoundFrom(delta, sigma, Visit(work, delta(work[i]), sigma), j)
  {
    var grown := Visit(work, delta(work[i]), sigma);
    forall j | |work| <= j < |grown|
      ensures FoundFrom(delta, sigma, grown, j)
    {
      assert grown[j] in grown;
      var a :| a in sigma && delta(work[i])[a] == grown[j];
      assert grown[i] == grown[..|work|][i] == work[i];
    }
  }

  /** Processing an entry keeps the worklist well formed. */
  lemma VisitKeepsOk(size: nat, work: seq<set<StateId>>, targets: map<Symbol, set<StateId>>, sigma: set<Symbol>)
    requires WorklistOk(size, work)
    requires targets.Keys == sigma
    requires forall a | a in sigma :: InArena(targets[a], size)
    ensures WorklistOk(size, Visit(work, targets, sigma))
  {
    var grown := Visit(work, targets, sigma);
    forall k | 0 <= k < |grown|
      ensures grown[k] != {} && InArena(grown[k], size)
    {
      var x := grown[k];
      if x !in work {
        var a :| a in sigma && targets[a] == x;
      }
    }
  }

  /** Processing entry `i` marks it processed and keeps the entries before
      it processed. */
  lemma VisitProcesses(delta: set<StateId> -> map<Symbol, set<StateId>>, sigma: set<Symbol>, work: seq<set<StateId>>, i: nat)
    requires i < |work|
    requires delta(work[i]).Keys == sigma
    requires Processed(delta, sigma, work, i)
    ensures Processed(delta, sigma, Visit(work, delta(work[i]), sigma), i + 1)
  {
    var grown := Visit(work, delta(work[i]), sigma);
    forall k, a | 0 <= k < i + 1 && a in sigma && a in delta(grown[k])
      ensures delta(grown[k])[a] == {} || delta(grown[k])[a] in grown
    {
      assert grown[k] == grown[..|work|][k] == work[k];
      if k < i {
        assert delta(work[k])[a] in work ==> delta(work[k])[a] in grown[..|work|];
      }
    }
  }

  /** A worklist either stays as it was or gains a set of arena states it
      did not hold. */
  lemma GrowthShrinksRemainder(size: nat, work: seq<set<StateId>>, grown: seq<set<StateId>>)
    requires WorklistOk(size, grown)
    requires |work| <= |grown| && grown[..|work|] == work
    requires |grown| == |work| || Elems(work) < Elems(grown)
    ensures grown == work || |Subsets(size) - Elems(grown)| < |Subsets(size) - Elems(work)|
  {
    if |grown| > |work| {
      WorklistInSubsets(size, grown);
      RemainderShrinks(Subsets(size), Elems(work), Elems(grown));
    } else {
      assert grown == grown[..|work|];
    }
  }

  /** The outer loop: processes the entries from position `i` on, including
      those appended meanwhile. Every entry it appends is the target of an
      earlier entry. It terminates because every append adds a
      set of arena states not present before, and there are finitely many. */
  ghost function Discover(size: nat, delta: set<StateId> -> map<Symbol, set<StateId>>, sigma: set<Symbol>,
                          work: seq<set<StateId>>, i: nat): (r: seq<set<StateId>>)
    requires TableOk(size, sigma, delta)
    requires WorklistOk(size, work)
    requires i <= |work|
    requires Processed(delta, sigma, work, i)
    ensures WorklistOk(size, r)
    ensures |work| <= |r| && r[..|work|] == work
    ensures Processed(delta, sigma, r, |r|)
    ensures forall j | |work| <= j < |r| :: FoundFrom(delta, sigma, r, j)
    decreases |Subsets(size) - Elems(work)|, |work| - i
  {
    if i == |work| then work
    else
      var grown := Visit(work, delta(work[i]), sigma);
      VisitKeepsOk(size, work, delta(work[i]), sigma);
      VisitProcesses(delta, sigma, work, i);
      VisitFinds(delta, sigma, work, i);
      GrowthShrinksRemainder(size, work, grown);
      var r := Discover(size, delta, sigma, grown, i + 1);
      PrefixTransitive(work, grown, r);
      forall j | |work| <= j < |grown|
        ensures FoundFrom(delta, sigma, r, j)
      {
        FoundFromPrefix(delta, sigma, grown, r, j);
      }
      r
  }
}
